=== FILE: README.md ===
# sidekick.koplugin release and deploy scripts, in Dafny

This project models the two maintenance scripts of the Sidekick KOReader
plugin. It proves properties of the model.

- `scripts/release.py` reads the plugin version from `_meta.lua` with the
  pattern `version\s*=\s*"([^"]+)"` and asks for a new version.
  - It trims the answer and drops one leading `v` or `V`.
  - It rewrites every assignment to the canonical `version = "T"`.
  - After a confirmation prompt, it runs `git add`, `git commit`,
    `git tag`, `git push origin <branch>` and `git push origin T`. A runner
    exits at the first failing command.
- `scripts/deploy.py` pushes four files to a fixed directory on the device
  with `adb`. It then clears the device log and prints the log lines that
  mention the plugin, with the keyword emphasised.

The model is functional. File contents, prompt answers, the current
branch, file existence, and the outcome of each shell command are
parameters. A git or adb step's outcome is an oracle indexed by step.

Modules:

- `Wrappers` (`wrappers.dfy`): `Option`.
- `Text` (`text.dfy`): the Python string operations the scripts use:
  `strip`, ASCII `lower`, `in`, `startswith` and `replace`. It also
  defines `count`, `split` and `join`, which the scripts do not call, to
  state what `replace` does.
- `VersionStore` (`version_store.dfy`): a hand-written matcher for the
  one pattern, with:
  - `re.search` as `Search` and `Extract`;
  - `re.sub` as `Rewrite`;
  - the normalisation of the typed version.
- `Release` (`release.dfy`): the fail-fast git trace, the confirmation
  gate, and the script's main path, both as written (`ScriptMain`) and
  with the corrected normalisation (`ReleaseMain`).
- `Deploy` (`deploy.dfy`): the command runner, the sync plan, the log
  filter and highlighter, the read loop and the main path.

The matcher has no backtracking engine. Each part of the pattern
is deterministic:

- `\s*` must stop before the `=` or `"` that follows it.
- `[^"]+` must stop at the first quote.

So the greedy choice is the only one that can succeed. `MatchPrefixSound`
and `MatchPrefixComplete` prove that the matcher accepts exactly the texts
`version<ws>=<ws>"<capture>"<rest>`, where `<capture>` is non-empty and has
no quote. `\s` and `strip()` both use Python's whitespace set: the 29 code
points `str.isspace()` accepts.

## Model

| member | source | states |
|---|---|---|
| VersionStore.MatchPrefixSound | scripts/release.py:34 | every anchored match has the shape `version<ws>=<ws>"<capture>"<rest>`, with whitespace-only gaps |
| VersionStore.MatchPrefixComplete | scripts/release.py:34 | every text of that shape with a non-empty, quote-free capture is matched, and the match yields exactly that capture and rest |
| VersionStore.Search | scripts/release.py:34 | the hit found is a match, no earlier offset matches, and `None` means no offset matches |
| VersionStore.SearchFindsLeftmost | scripts/release.py:34 | a match with no match before it is exactly the one the search returns |
| VersionStore.Extract | scripts/release.py:40 | the version read is non-empty and contains no `"` |
| VersionStore.ExtractFindsFirst | scripts/release.py:34-40 | reading finds nothing exactly when no offset matches; otherwise it yields the capture of the leftmost match |
| VersionStore.MatchPrefix | scripts/release.py:34 | the pattern anchored at the start of the text: a match's capture is non-empty and has no `"`, and what follows the match is a proper suffix of the text (both directions of the language are in `MatchPrefixSound` and `MatchPrefixComplete`) |
| VersionStore.Canonical | scripts/release.py:57 | the replacement text `version = "T"`; `CanonicalReadable` and `RewriteCanonical` state that it reads back as `T` and is a fixed shape for the rewrite |
| VersionStore.Rewrite | scripts/release.py:57 | `re.sub` of the pattern by `version = "T"`, scanning left to right over non-overlapping matches; its meaning is stated by `RewriteNoMatch`, `RewriteFirst`, `RoundTrip` and `LastWriteWins` |
| VersionStore.CanonicalReadable | scripts/release.py:34-40 | a file holding just `version = "P"` reads back as `P` |
| VersionStore.RewriteNoMatch | scripts/release.py:57 | content with no match is written back unchanged |
| VersionStore.RewriteFirst | scripts/release.py:57 | text before the first match is kept verbatim; the match becomes `version = "T"`; the rest is rewritten the same way |
| VersionStore.PrefixBlocked | scripts/release.py:57 | appending a text that starts with `version` and holds a quote cannot create or destroy a match at an earlier offset |
| VersionStore.NoMatchStable | scripts/release.py:57 | an offset that does not match before a match keeps not matching when the text from that match on is replaced by another match |
| VersionStore.SearchAfterRewrite | scripts/release.py:34-57 | after the rewrite, the first match is at the same offset and carries the new token |
| VersionStore.RoundTrip | scripts/release.py:34-57 | reading back a rewritten file yields the new token, for a non-empty token without `"` or `\` |
| VersionStore.LastWriteWins | scripts/release.py:57 | rewriting twice equals rewriting once with the second token |
| VersionStore.RewriteIdempotent | scripts/release.py:57 | rewriting with the stored token again changes nothing |
| VersionStore.RewriteCanonical | scripts/release.py:57 | a file holding only the canonical assignment is rewritten to the canonical assignment of the new token |
| VersionStore.Normalize | scripts/release.py:45-53 | corrected: an accepted token is never empty |
| VersionStore.NormalizeSpec | scripts/release.py:45-53 | corrected: the answer cancels exactly when its trimmed form is empty or a lone `v`/`V`; otherwise the token is the trimmed answer minus at most one leading `v`/`V` |
| VersionStore.NormalizeExamples | scripts/release.py:45-53 | corrected: `vv1.0` gives `v1.0`, ` V2.0.0 ` gives `2.0.0`, and blank answers and ` v ` cancel |
| VersionStore.NormalizeAsWritten | scripts/release.py:45-53 | as written, an answer cancels only when its trimmed form is empty, and the token is the trimmed answer minus at most one leading `v`/`V` |
| VersionStore.NormalizeAgrees | scripts/release.py:45-53 | the as-written and corrected normalisations differ exactly on the answers that trim to `v` or `V` |
| VersionStore.AsWrittenEmptyToken | scripts/release.py:45-57 | as written, the answer `v` yields the empty token, the file gets `version = ""`, and that file no longer has a version to read |
| VersionStore.EmptyCanonicalUnread | scripts/release.py:34 | `version = ""` contains no match |
| Text.IsSpace | scripts/release.py:34-45 | the whitespace of `\s` and of `str.strip`: the 29 code points Python's `str.isspace` accepts |
| Text.Strip | scripts/release.py:45 | the stripped text neither starts nor ends with whitespace |
| Text.StripSlice | scripts/release.py:45 | the input is the stripped text with whitespace-only text on each side: `strip` removes nothing else |
| Text.StripPadded | scripts/release.py:45 | whitespace around a text with non-space ends is exactly what `strip` removes |
| Text.Lower | scripts/release.py:52 | the lowercased text has the input's length, and each character is the input's character lowercased (ASCII letters only) |
| Text.Contains | scripts/deploy.py:90 | Python's `p in s`: some offset starts an occurrence; `CountPositiveIffContains` ties it to the count |
| Text.Split | scripts/deploy.py:91 | `str.split` at a non-empty separator: at least one piece; `SplitJoin`, `SplitCount` and `SplitPiecesFree` state what the pieces add up to, and `SplitLeftmost` fixes where the cuts fall |
| Text.SplitLeftmost | scripts/deploy.py:91 | `split` cuts at the leftmost occurrence first: the first piece is the text up to the first occurrence (all of it when there is none), and the other pieces are the split of what follows that occurrence; this fixes the pieces even for a separator that overlaps itself |
| Text.ReplaceAll | scripts/deploy.py:91 | `str.replace` of every non-overlapping occurrence, left to right; `ReplaceAllIsJoin` and `ReplaceAllAbsent` state its result |
| Text.Count | scripts/deploy.py:91 | the non-overlapping occurrences of a non-empty pattern, each taking the pattern's length, fit in the text |
| Text.CountPositiveIffContains | scripts/deploy.py:90-91 | `in` holds exactly when the non-overlapping count is positive |
| Text.SplitJoin | scripts/deploy.py:91 | joining the pieces of a split with the separator gives the text back |
| Text.SplitCount | scripts/deploy.py:91 | a split has one more piece than the text has non-overlapping occurrences |
| Text.SplitPiecesFree | scripts/deploy.py:91 | no piece of a split holds the separator |
| Text.ReplaceAllIsJoin | scripts/deploy.py:91 | `replace` is a split at the pattern rejoined with the replacement |
| Text.ReplaceAllAbsent | scripts/deploy.py:91 | `replace` of a pattern the text does not hold changes nothing |
| Release.RunFailFast | scripts/release.py:11-17 | the issued commands are a prefix of the plan; every issued command but the last succeeded; the run failed exactly when the last issued command failed; a run that did not fail issued everything |
| Release.StopsAtFirstFailure | scripts/release.py:11-17 | when step k is the first to fail, exactly the first k+1 commands are issued and the run has failed |
| Release.RunsToEnd | scripts/release.py:11-17 | when no step fails, every command is issued and the run succeeds |
| Release.CommandLine | scripts/release.py:71-86 | the shell line of each git command, quoting the file path and the commit message; `PlanLines` gives the five lines of the plan |
| Release.PlanLines | scripts/release.py:66-86 | `GitPlan` gives five shell lines, in order: `git add "M"`, `git commit -m "Bump version to T"`, `git tag T`, `git push origin B`, `git push origin T` |
| Release.Confirmed | scripts/release.py:95 | the gate `confirm.lower() == 's'`; `ConfirmedIff` gives the answers that open it |
| Release.GitPlan | scripts/release.py:66-86 | the five git commands in the script's order; `PlanLines` gives their shell lines |
| Release.ConfirmedIff | scripts/release.py:94-95 | `Confirmed`, the gate `confirm.lower() == 's'`, opens exactly for the answers `s` and `S` (no trimming) |
| Release.ExitCode | scripts/release.py:17-49 | status 1 for a missing file, a missing key, a failing git step and a token holding a backslash (outcome `EscapedToken`); status 0 otherwise; `ScriptMain` and `ReleaseMain` state which runs end which way |
| Release.ScriptMain | scripts/release.py:24-98 | the script's run as written: exit status 0 exactly for cancelled, declined and released runs; a missing file and a missing key are each recognised exactly; the run cancels exactly when the trimmed answer is empty; git runs only after a confirmation |
| Release.ReleaseMain | scripts/release.py:24-98 | the same run with the corrected normalisation: the same status, file and git guarantees, and it cancels exactly when the corrected normalisation yields no token |
| Release.ScriptAgrees | scripts/release.py:45-57 | the script's run and the corrected run differ exactly on a readable file with an answer that trims to `v` or `V` |
| Release.ScriptBareV | scripts/release.py:45-98 | as written, the answer `v` on a file holding `version = "P"` writes `version = ""`, which no longer reads back, and a confirmed run with no git failure issues the plan for the empty version, `git tag ` and `git push origin ` included; the corrected run cancels and writes nothing |
| Release.ReleaseFrom | scripts/release.py:36-60 | with the file read, the run stops with status 1 and writes nothing exactly when no version is found, and cancels exactly when there is a version but no token |
| Release.ReleaseAnswered | scripts/release.py:47-49 | with a version found, the run cancels with status 0 and writes nothing exactly when normalisation yields no token |
| Release.Publish | scripts/release.py:57-64 | once a token is accepted, the file is written with the rewritten content whatever the gate decides |
| Release.ReleaseRoundTrip | scripts/release.py:34-98 | a run whose token has no `"` and no `\` writes a file whose version reads back as that token |
| Release.NothingWrittenOnAbort | scripts/release.py:36-49 | as written, a missing key (status 1) or an answer that is blank once trimmed (status 0) leaves the file unwritten and issues no git command |
| Release.DeclinedKeepsRewrite | scripts/release.py:94-98 | a declined confirmation issues no git command, keeps the rewritten file, and ends with status 0 |
| Release.GitAbortsAt | scripts/release.py:66-96 | when git step k is the first to fail, the first k+1 planned commands are issued, nothing after them, and the status is 1 |
| Release.ReleaseSucceeds | scripts/release.py:66-96 | a confirmed run with no failing step issues the whole plan and ends with status 0 |
| Deploy.RunCommand | scripts/deploy.py:33-39 | success exactly when the exit code is 0; a failure prints a line naming the command, then the command's stderr |
| Deploy.PathJoin | scripts/deploy.py:50 | the local path starts with the project root and ends with the relative entry |
| Deploy.PushCommand | scripts/deploy.py:58 | the `adb push` line for one local file, always to the one remote directory; `PushTargetsRemote` states that destination |
| Deploy.PushTargetsRemote | scripts/deploy.py:55-58 | every push command ends with the one remote directory, whatever the entry's sub-directory |
| Deploy.SyncOne | scripts/deploy.py:49-61 | one manifest entry: push the joined path when it exists, warn otherwise; `SyncOneSpec` states its contract |
| Deploy.SyncOneSpec | scripts/deploy.py:49-61 | the entry's local path is the joined path; it is pushed exactly when that file exists, with the push command for it; the report succeeds exactly when the push's exit code is 0 and prints nothing exactly then |
| Deploy.SyncEntriesSpec | scripts/deploy.py:52-59 | every push of the copy phase issues the push command of its own file, and its report prints nothing exactly when it succeeded |
| Deploy.SyncEntries | scripts/deploy.py:48-61 | one action per manifest entry, in order, each decided by that entry alone |
| Deploy.SyncFiles | scripts/deploy.py:41-46 | a missing adb binary ends the copy before any entry; otherwise every entry of the four-file manifest gets an action |
| Deploy.SyncSplitsByExistence | scripts/deploy.py:48-61 | the pushed files are exactly the existing entries and the warned ones exactly the missing entries, both in manifest order |
| Deploy.PushFailuresIgnored | scripts/deploy.py:59 | what the pushes return changes neither which files are pushed nor which are warned about |
| Deploy.OneActionPerEntry | scripts/deploy.py:48-61 | pushes and warnings together number exactly the manifest entries |
| Deploy.Passes | scripts/deploy.py:90 | the filter: the keyword as written, `luajit`, or `runtime error` in any letter case occurs in the line; `PassesExamples` and `KeywordCaseSensitive` pin it down on both sides |
| Deploy.KeywordCaseSensitive | scripts/deploy.py:90 | a line holding only `sidekick` in lower case, with no `luajit` and no runtime error, is dropped |
| Deploy.Highlight | scripts/deploy.py:91 | the formatter: strip, then replace every keyword by its emphasised form; `HighlightShape` and `HighlightOnlyStrips` state what comes out |
| Deploy.PassesExamples | scripts/deploy.py:90 | the keyword passes as written; `runtime error` passes in upper case |
| Deploy.HighlightShape | scripts/deploy.py:91 | the output is the stripped line cut at each keyword occurrence and rejoined with the emphasised keyword; the pieces are one more than the occurrences and none still holds the keyword |
| Deploy.HighlightOnlyStrips | scripts/deploy.py:91 | a line without the keyword is only stripped |
| Deploy.UntilEmpty | scripts/deploy.py:86-88 | the lines read are a prefix of the stream, none of them empty, and it stops only at an empty read or the end |
| Deploy.UntilEmptyAt | scripts/deploy.py:86-88 | the first empty read, or the end, is where reading stops |
| Deploy.Formatted | scripts/deploy.py:90-92 | the filter then the highlighter, over the lines read; `FormattedMembers` and `FormattedAppend` state which lines come out and in what order |
| Deploy.FormattedMembers | scripts/deploy.py:90-92 | a line is printed exactly when some line read passes the filter and formats to it |
| Deploy.FormattedAppend | scripts/deploy.py:86-92 | printing keeps the order of the lines read |
| Deploy.SelectUntilEmpty | scripts/deploy.py:86-92 | the read loop prints exactly the kept lines, formatted, of the reads before the first empty one |
| Deploy.StreamLogs | scripts/deploy.py:72-92 | the lines printed are the passing lines, highlighted, in input order, up to the first empty read |
| Deploy.PushCommandsMatchPushes | scripts/deploy.py:58-59 | the push commands issued are, one for one and in order, the pushes of the pushed files |
| Deploy.SyncErrors | scripts/deploy.py:33-39 | the runner's error lines of the copy phase, push by push in order; `SyncErrorsIff` states when there are none |
| Deploy.ClearAfterPushes | scripts/deploy.py:58-67 | the commands issued are the push of each pushed file, in manifest order, and then the log clear `"adb" logcat -c` (the constant `ClearCommand`), once and last |
| Deploy.SyncErrorsIff | scripts/deploy.py:33-39 | the copy phase prints no error line exactly when every push it issued succeeded |
| Deploy.DeployMain | scripts/deploy.py:41-103 | status 1 when adb is missing, in which case nothing is issued, printed or reported; status 0 otherwise, when the copy phase is `sync_files`'s, the commands are the pushes of the existing entries in manifest order followed by the log clear, the error lines are the runner's for the pushes and then the clear (none exactly when every command succeeded), and the printed lines are those of the stream loop |

## Left out

- Process execution, shell quoting and working directories. Each command is a string, and its outcome is a parameter.
- File reads and writes. The content of `_meta.lua` is a parameter, and the content written is a result.
- The `input()` prompts. The two answers are parameters.
- `get_current_branch`. It shells out to git, so its result is a parameter.
- The status messages, emoji and colour headers the scripts print. Only the highlighted log lines and the deploy runner's error lines (`Deploy.DeployRun.errors`) are modelled; the release runner's error output is not.
- `clear_screen`, `time.sleep`, and the `KeyboardInterrupt` handler that terminates the log process. These are terminal control and signal handling.
- The `logcat -v time` process and its UTF-8 decoding with replacement. The stream is a parameter: a sequence of reads.
- Release.ReleaseMain: a token containing a backslash ends the run with status 1 and writes nothing (outcome `EscapedToken`). `re.sub` reads the replacement as a template. It accepts `\n`, `\\`, `\a`, `\b`, `\f`, `\r`, `\t`, `\v`, octal escapes and group references such as `\g<0>`. It keeps a backslash before a character that is neither a letter nor a digit as written, so `1.0\-rc` is written and published. It raises on an unknown letter escape, a malformed group reference such as `\g1`, a reference to a missing group, an octal escape above `\377`, and a trailing backslash, among others. On a token that raises, the script also ends with status 1 before writing, so the two runs agree. Template expansion is not modelled, so the runs differ on the tokens whose template the script expands.
- Release.ScriptMain: a token containing a backslash ends the run with status 1 and writes nothing (outcome `EscapedToken`), as in `Release.ReleaseMain`. The script expands the template instead, so the runs differ on every token whose template `re.sub` expands, such as `1.0\-rc`, and agree on the tokens for which it raises.
- Release.ReleaseMain: uses the corrected normalisation. On a readable file and an answer that trims to `v` or `V` it cancels with status 0 and writes nothing. The script instead writes `version = ""` and goes on to the gate and to git with the empty version. `Release.ScriptMain` is the run as written, and `Release.ScriptAgrees` proves the two differ on exactly those inputs.
- Release.ReleaseRoundTrip: stated for the corrected run. By `Release.ScriptAgrees` it holds for the script too, except on an answer that trims to `v` or `V`.
- Release.DeclinedKeepsRewrite: stated for the corrected run. By `Release.ScriptAgrees` it holds for the script too, except on an answer that trims to `v` or `V`.
- Release.GitAbortsAt: stated for the corrected run. By `Release.ScriptAgrees` it holds for the script too, except on an answer that trims to `v` or `V`.
- Release.ReleaseSucceeds: stated for the corrected run. By `Release.ScriptAgrees` it holds for the script too, except on an answer that trims to `v` or `V`.
- VersionStore.Rewrite: requires a token without backslash, for the same reason.
- Text.Lower: lowercases ASCII letters only. Python's `lower()` also maps non-ASCII letters, and some map to ASCII: U+0130 lowercases to `i` followed by U+0307, and U+212A (Kelvin sign) to `k`. The gate compares the whole lowered answer with `s`, and U+0130 lowers to two characters, so the gate decides the same. The `v` test looks at an answer's first character, and no non-ASCII character lowers to a string starting with `v`. In the filter, the combining mark U+0307 that follows the `i` from U+0130 breaks the match of `runtime error`, so the filter also decides the same. `runtime error` holds no `k`, so U+212A cannot complete a match either.
- Deploy.PathJoin: joins with one given separator. Windows `os.path.join` also treats `/` as a separator and handles drive letters.

The script drops exactly one `v` or `V`, so `vv1.0` becomes `v1.0`.

## Findings

| source | as written | input that shows it | evidently intended | confidence | as-written member | corrected member |
|---|---|---|---|---|---|---|
| scripts/release.py:45-57 | the emptiness test runs before the leading `v` is dropped | the answer `v` (or ` V `) yields the empty token; the file becomes `version = ""`, which the pattern no longer matches, and git runs with an empty version (`git tag ` with no name lists the tags instead of creating one) | an answer with nothing after the prefix cancels like an empty one, so the stored version is never empty and still reads back | not executed | VersionStore.AsWrittenEmptyToken | VersionStore.Normalize |

`VersionStore.NormalizeAsWritten` and `Release.ScriptMain` model the code
as written. `VersionStore.AsWrittenEmptyToken` and `Release.ScriptBareV`
exhibit the problem. `Normalize` also
cancels on a trimmed `v` or `V`. The release path uses `Normalize`, and
`Release.ReleaseRoundTrip` proves that the written file reads back as the
accepted token.

=== FILE: deploy.dfy ===
/** The deploy script: it copies the plugin's files to the device with
    `adb push`, clears the device log, then prints the log lines that
    concern the plugin, with the keyword emphasised.

    Whether the adb binary and each local file exist, what each command
    returns, and the lines the log stream yields are parameters: the model
    performs no I/O. */
module Deploy {
  import opened Text

  const AdbPath: string := "C:\\Program Files\\Android Tools\\adb.exe"

  /** Every file lands directly in this directory, whatever its
      sub-directory in the project. */
  const RemotePath: string := "/storage/emulated/0/koreader/plugins/sidekick.koplugin/"

  const FilesToSync: seq<string> := ["src/main.lua", "src/progress.lua", "src/_meta.lua", "src/utils.lua"]

  const FilterKeyword: string := "Sidekick"

  /** The terminal escapes the script uses. */
  const OkGreen: string := "\U{1B}[92m"
  const Fail: string := "\U{1B}[91m"
  const Bold: string := "\U{1B}[1m"
  const EndColor: string := "\U{1B}[0m"

  /** The keyword as it is printed: green and bold. */
  const Emphasised: string := OkGreen + Bold + FilterKeyword + EndColor

  /** What a finished shell command reports. */
  datatype ProcessResult = ProcessResult(returnCode: int, stderr: string)

  /** Whether a command succeeded, and what the runner printed. */
  datatype Report = Report(ok: bool, printed: seq<string>)

  /** The runner: success exactly when the exit code is 0; on failure it
      prints the command in red and then the command's error output. */
  function RunCommand(command: string, result: ProcessResult): (r: Report)
    ensures r.ok <==> result.returnCode == 0
    ensures r.ok ==> r.printed == []
    ensures !r.ok ==> |r.printed| == 2 && Contains(r.printed[0], command) && r.printed[1] == result.stderr
  {
    if result.returnCode != 0 then
      var line := Fail + "Erro: " + command + EndColor;
      assert OccursAt(line, command, |Fail + "Erro: "|);
      Report(false, [line, result.stderr])
    else
      Report(true, [])
  }

  /** `os.path.join(root, rel)` for a relative `rel`, with the platform's
      separator `sep`. */
  function PathJoin(root: string, rel: string, sep: char): (p: string)
    ensures |root| + |rel| <= |p| && p[..|root|] == root && p[|p| - |rel|..] == rel
  {
    if root == [] || root[|root| - 1] == sep then root + rel else root + [sep] + rel
  }

  /** A report prints nothing exactly when its command succeeded, as
      every report of `RunCommand` does. */
  predicate Quiet(r: Report) {
    r.ok <==> r.printed == []
  }

  /** The push of one local file to the remote directory. */
  function PushCommand(local: string): string {
    "\"" + AdbPath + "\" push \"" + local + "\" \"" + RemotePath + "\""
  }

  /** Every push names the same remote directory as its destination, so
      the project's sub-directories are flattened away on the device. */
  lemma {:induction false} PushTargetsRemote(local: string)
    ensures var c := PushCommand(local);
      var target := "\"" + RemotePath + "\"";
      && |target| <= |c|
      && c[|c| - |target|..] == target
      && c[..|c| - |target|] == "\"" + AdbPath + "\" push \"" + local + "\" "
  {
    var target := "\"" + RemotePath + "\"";
    var head := "\"" + AdbPath + "\" push \"" + local + "\" ";
    assert PushCommand(local) == head + target;
  }

  /** What happened to one manifest entry. */
  datatype SyncAction =
    | Pushed(local: string, command: string, report: Report)
    | Warned(local: string)

  /** The whole copy phase: either adb is missing and the script exits, or
      one action per manifest entry. */
  datatype SyncRun = AdbMissing | Synced(actions: seq<SyncAction>)

  /** One entry: an existing file is pushed, a missing one is warned
      about. The runner's report is recorded and otherwise ignored. */
  function SyncOne(root: string, sep: char, rel: string, present: string -> bool, result: ProcessResult): SyncAction {
    var local := PathJoin(root, rel, sep);
    if present(local) then Pushed(local, PushCommand(local), RunCommand(PushCommand(local), result))
    else Warned(local)
  }

  /** The entry's action names its joined path; it is a push exactly when
      that file exists, with the push command for it, and the report
      succeeds, printing nothing, exactly when the push's exit code is 0. */
  lemma {:induction false} SyncOneSpec(root: string, sep: char, rel: string, present: string -> bool, result: ProcessResult)
    ensures var a := SyncOne(root, sep, rel, present, result);
      && a.local == PathJoin(root, rel, sep)
      && (a.Pushed? <==> present(a.local))
      && (a.Pushed? ==> a.command == PushCommand(a.local) && a.report.ok == (result.returnCode == 0))
      && (a.Pushed? ==> Quiet(a.report))
  {
  }

  /** Every push of a copy phase carries its own command and a report
      that prints nothing exactly when it succeeded. */
  lemma {:induction false} SyncEntriesSpec(root: string, sep: char, manifest: seq<string>, present: string -> bool,
                                           result: nat -> ProcessResult)
    ensures var acts := SyncEntries(root, sep, manifest, present, result);
      forall i :: 0 <= i < |acts| && acts[i].Pushed? ==>
        acts[i].command == PushCommand(acts[i].local) && Quiet(acts[i].report)
  {
    var acts := SyncEntries(root, sep, manifest, present, result);
    forall i | 0 <= i < |acts| && acts[i].Pushed?
      ensures acts[i].command == PushCommand(acts[i].local) && Quiet(acts[i].report)
    {
      SyncOneSpec(root, sep, manifest[i], present, result(i));
    }
  }

  /** The entries of `manifest`, in order; `result(i)` is what the push
      of entry `i` returns, if it is pushed. */
  function SyncEntries(root: string, sep: char, manifest: seq<string>, present: string -> bool,
                       result: nat -> ProcessResult): (acts: seq<SyncAction>)
    ensures |acts| == |manifest|
    ensures forall i :: 0 <= i < |manifest| ==> acts[i] == SyncOne(root, sep, manifest[i], present, result(i))
    decreases |manifest|
  {
    if manifest == [] then []
    else
      var n := |manifest| - 1;
      var before := SyncEntries(root, sep, manifest[..n], present, result);
      var acts := before + [SyncOne(root, sep, manifest[n], present, result(n))];
      Snoc(before, SyncOne(root, sep, manifest[n], present, result(n)));
      Take(manifest, n);
      acts
  }

  lemma {:induction false} Snoc<T>(a: seq<T>, x: T)
    ensures |a + [x]| == |a| + 1 && (a + [x])[|a|] == x
    ensures forall i :: 0 <= i < |a| ==> (a + [x])[i] == a[i]
  {
  }

  lemma {:induction false} Take<T>(a: seq<T>, n: nat)
    requires n <= |a|
    ensures forall i :: 0 <= i < n ==> a[..n][i] == a[i]
  {
  }

  /** `sync_files`: nothing is pushed when the adb binary is missing. */
  function SyncFiles(adbExists: bool, root: string, sep: char, present: string -> bool,
                     result: nat -> ProcessResult): (r: SyncRun)
    ensures r.AdbMissing? <==> !adbExists
    ensures r.Synced? ==> |r.actions| == |FilesToSync|
  {
    if !adbExists then AdbMissing
    else Synced(SyncEntries(root, sep, FilesToSync, present, result))
  }

  /** The local paths of the pushes, in order. */
  function Pushes(acts: seq<SyncAction>): seq<string> {
    if acts == [] then []
    else Pushes(acts[..|acts| - 1]) + (if acts[|acts| - 1].Pushed? then [acts[|acts| - 1].local] else [])
  }

  /** The local paths warned about, in order. */
  function Warnings(acts: seq<SyncAction>): seq<string> {
    if acts == [] then []
    else Warnings(acts[..|acts| - 1]) + (if acts[|acts| - 1].Warned? then [acts[|acts| - 1].local] else [])
  }

  /** The local paths of the entries that exist (`keep`) or are missing
      (`!keep`), in manifest order. */
  function LocalsWhere(root: string, sep: char, manifest: seq<string>, present: string -> bool, keep: bool): seq<string> {
    if manifest == [] then []
    else
      var n := |manifest| - 1;
      var local := PathJoin(root, manifest[n], sep);
      LocalsWhere(root, sep, manifest[..n], present, keep) + (if present(local) == keep then [local] else [])
  }

  /** Every existing entry is pushed and every missing one is warned
      about, in manifest order, whatever the earlier pushes returned. */
  lemma {:induction false} SyncSplitsByExistence(root: string, sep: char, manifest: seq<string>,
                                                 present: string -> bool, result: nat -> ProcessResult)
    ensures Pushes(SyncEntries(root, sep, manifest, present, result)) == LocalsWhere(root, sep, manifest, present, true)
    ensures Warnings(SyncEntries(root, sep, manifest, present, result)) == LocalsWhere(root, sep, manifest, present, false)
    decreases |manifest|
  {
    if manifest != [] {
      var n := |manifest| - 1;
      var acts := SyncEntries(root, sep, manifest, present, result);
      var before := SyncEntries(root, sep, manifest[..n], present, result);
      SyncSplitsByExistence(root, sep, manifest[..n], present, result);
      assert acts[..n] == before;
    }
  }

  /** A failing push does not stop the copy: two runs that differ only in
      what the pushes return push and warn about the same files. */
  lemma {:induction false} PushFailuresIgnored(root: string, sep: char, manifest: seq<string>, present: string -> bool,
                            r1: nat -> ProcessResult, r2: nat -> ProcessResult)
    ensures Pushes(SyncEntries(root, sep, manifest, present, r1)) == Pushes(SyncEntries(root, sep, manifest, present, r2))
    ensures Warnings(SyncEntries(root, sep, manifest, present, r1)) == Warnings(SyncEntries(root, sep, manifest, present, r2))
  {
    SyncSplitsByExistence(root, sep, manifest, present, r1);
    SyncSplitsByExistence(root, sep, manifest, present, r2);
  }

  /** Every entry yields exactly one action: a push when its file
      exists, a warning otherwise. */
  lemma {:induction false} OneActionPerEntry(root: string, sep: char, manifest: seq<string>,
                                             present: string -> bool, result: nat -> ProcessResult)
    ensures |Pushes(SyncEntries(root, sep, manifest, present, result))|
          + |Warnings(SyncEntries(root, sep, manifest, present, result))| == |manifest|
    decreases |manifest|
  {
    if manifest != [] {
      var n := |manifest| - 1;
      var acts := SyncEntries(root, sep, manifest, present, result);
      OneActionPerEntry(root, sep, manifest[..n], present, result);
      assert acts[..n] == SyncEntries(root, sep, manifest[..n], present, result);
    }
  }

  /** The filter: the keyword (case-sensitive), `luajit`, or `runtime
      error` in any letter case. */
  predicate Passes(line: string) {
    Contains(line, FilterKeyword) || Contains(line, "luajit") || Contains(Lower(line), "runtime error")
  }

  /** The keyword is matched as written, a runtime error in any letter
      case. */
  lemma {:induction false} PassesExamples()
    ensures Passes("W/Sidekick: sync done")
    ensures Passes("E RUNTIME ERROR: bad argument")
  {
    var a := "W/Sidekick: sync done";
    assert a[2..2 + |FilterKeyword|] == FilterKeyword;
    assert OccursAt(a, FilterKeyword, 2);
    var b := "E RUNTIME ERROR: bad argument";
    var lb := Lower(b);
    forall k | 0 <= k < 13
      ensures lb[2 + k] == "runtime error"[k]
    {
      assert lb[2 + k] == LowerChar(b[2 + k]);
    }
    assert lb[2..15] == "runtime error";
    assert OccursAt(lb, "runtime error", 2);
  }

  /** The keyword is case-sensitive: a lowercase `sidekick` line with
      neither `luajit` nor a runtime error is dropped. */
  lemma {:induction false} KeywordCaseSensitive()
    ensures !Passes("sidekick up")
  {
    var s := "sidekick up";
    assert forall i :: 0 <= i < |s| ==> s[i] != 'S' && s[i] != 'l';
    AbsentHead(s, FilterKeyword);
    AbsentHead(s, "luajit");
    assert |Lower(s)| < |"runtime error"|;
  }

  /** A text that never holds the pattern's first character does not
      contain the pattern. */
  lemma {:induction false} AbsentHead(s: string, p: string)
    requires p != [] && forall i :: 0 <= i < |s| ==> s[i] != p[0]
    ensures !Contains(s, p)
  {
    forall i: nat | i <= |s|
      ensures !OccursAt(s, p, i)
    {
      if i + |p| <= |s| {
        assert s[i..i + |p|][0] != p[0];
      }
    }
  }

  /** The formatter: the line is stripped and every occurrence of the
      keyword is emphasised. */
  function Highlight(line: string): string {
    ReplaceAll(Strip(line), FilterKeyword, Emphasised)
  }

  /** The highlighted line is the stripped line cut at each keyword
      occurrence and rejoined with the emphasised keyword: there are as
      many emphasised keywords as the stripped line had occurrences, no
      piece still holds the keyword, and nothing else changes. */
  lemma {:induction false} HighlightShape(line: string)
    ensures var pieces := Split(Strip(line), FilterKeyword);
      && Highlight(line) == Join(pieces, Emphasised)
      && Join(pieces, FilterKeyword) == Strip(line)
      && |pieces| == Count(Strip(line), FilterKeyword) + 1
      && forall i :: 0 <= i < |pieces| ==> !Contains(pieces[i], FilterKeyword)
  {
    var s := Strip(line);
    ReplaceAllIsJoin(s, FilterKeyword, Emphasised);
    SplitJoin(s, FilterKeyword);
    SplitCount(s, FilterKeyword);
    SplitPiecesFree(s, FilterKeyword);
  }

  /** A line without the keyword, one that passed for `luajit` or a
      runtime error, is only stripped. */
  lemma {:induction false} HighlightOnlyStrips(line: string)
    requires !Contains(Strip(line), FilterKeyword)
    ensures Highlight(line) == Strip(line)
  {
    ReplaceAllAbsent(Strip(line), FilterKeyword, Emphasised);
  }

  /** The reads before the first empty one: `readline` returns an empty
      string only at the end of the stream. */
  function UntilEmpty(stream: seq<string>): (r: seq<string>)
    ensures |r| <= |stream| && r == stream[..|r|]
    ensures forall j :: 0 <= j < |r| ==> r[j] != []
    ensures |r| < |stream| ==> stream[|r|] == []
  {
    if stream == [] || stream[0] == [] then [] else [stream[0]] + UntilEmpty(stream[1..])
  }

  /** The lines `fmt` makes of the lines `keep` accepts, in order. */
  function Selected(lines: seq<string>, keep: string -> bool, fmt: string -> string): seq<string> {
    if lines == [] then []
    else
      var last := lines[|lines| - 1];
      Selected(lines[..|lines| - 1], keep, fmt) + (if keep(last) then [fmt(last)] else [])
  }

  /** The printed lines for `lines`: each passing line, formatted. */
  function Formatted(lines: seq<string>): seq<string> {
    Selected(lines, Passes, Highlight)
  }

  /** Selection distributes over concatenation: the output keeps the
      input's order. */
  lemma {:induction false} SelectedAppend(a: seq<string>, b: seq<string>, keep: string -> bool, fmt: string -> string)
    ensures Selected(a + b, keep, fmt) == Selected(a, keep, fmt) + Selected(b, keep, fmt)
    decreases |b|
  {
    if b == [] {
      assert a + b == a;
    } else {
      var n := |b| - 1;
      SelectedAppend(a, b[..n], keep, fmt);
      InitOfConcat(a, b);
      var piece := if keep(b[n]) then [fmt(b[n])] else [];
      assert Selected(b, keep, fmt) == Selected(b[..n], keep, fmt) + piece;
      assert Selected(a + b, keep, fmt) == Selected(a + b[..n], keep, fmt) + piece;
      assert Selected(a, keep, fmt) + Selected(b[..n], keep, fmt) + piece
          == Selected(a, keep, fmt) + (Selected(b[..n], keep, fmt) + piece);
    }
  }

  lemma {:induction false} InitOfConcat<T>(a: seq<T>, b: seq<T>)
    requires b != []
    ensures (a + b)[..|a + b| - 1] == a + b[..|b| - 1]
    ensures (a + b)[|a + b| - 1] == b[|b| - 1]
  {
  }

  /** A line is selected exactly when some input line is kept and formats
      to it. */
  lemma {:induction false} SelectedMembers(lines: seq<string>, keep: string -> bool, fmt: string -> string, out: string)
    ensures out in Selected(lines, keep, fmt) <==> exists j :: 0 <= j < |lines| && keep(lines[j]) && out == fmt(lines[j])
    decreases |lines|
  {
    if lines != [] {
      var n := |lines| - 1;
      var init := lines[..n];
      SelectedMembers(init, keep, fmt, out);
      if exists j :: 0 <= j < |lines| && keep(lines[j]) && out == fmt(lines[j]) {
        var j :| 0 <= j < |lines| && keep(lines[j]) && out == fmt(lines[j]);
        if j < n {
          assert init[j] == lines[j];
        }
      }
      if out in Selected(init, keep, fmt) {
        var j :| 0 <= j < |init| && keep(init[j]) && out == fmt(init[j]);
        assert lines[j] == init[j];
      }
    }
  }

  /** Printing is in input order: the lines of a longer stream follow
      those of its first part. */
  lemma {:induction false} FormattedAppend(a: seq<string>, b: seq<string>)
    ensures Formatted(a + b) == Formatted(a) + Formatted(b)
  {
    SelectedAppend(a, b, Passes, Highlight);
  }

  /** A line is printed exactly when some input line passes the filter
      and formats to it. */
  lemma {:induction false} FormattedMembers(lines: seq<string>, out: string)
    ensures out in Formatted(lines) <==> exists j :: 0 <= j < |lines| && Passes(lines[j]) && out == Highlight(lines[j])
  {
    SelectedMembers(lines, Passes, Highlight, out);
  }

  /** `stream_logs`: read lines until the first empty read, print the
      formatted lines that pass the filter. */
  method StreamLogs(stream: seq<string>) returns (printed: seq<string>)
    ensures printed == Formatted(UntilEmpty(stream))
  {
    printed := SelectUntilEmpty(stream, Passes, Highlight);
  }

  /** The read loop: each read is kept or dropped as it arrives, and the
      loop ends at the first empty read. */
  method SelectUntilEmpty(stream: seq<string>, keep: string -> bool, fmt: string -> string) returns (printed: seq<string>)
    ensures printed == Selected(UntilEmpty(stream), keep, fmt)
  {
    printed := [];
    var i := 0;
    while i < |stream| && stream[i] != []
      invariant i <= |stream|
      invariant forall j :: 0 <= j < i ==> stream[j] != []
      invariant printed == Selected(stream[..i], keep, fmt)
    {
      var line := stream[i];
      if keep(line) {
        printed := printed + [fmt(line)];
      }
      assert stream[..i + 1][..i] == stream[..i];
      i := i + 1;
    }
    UntilEmptyAt(stream, i);
  }

  /** The first empty read, or the end, is where the stream stops. */
  lemma {:induction false} UntilEmptyAt(stream: seq<string>, i: nat)
    requires i <= |stream| && (i == |stream| || stream[i] == [])
    requires forall j :: 0 <= j < i ==> stream[j] != []
    ensures UntilEmpty(stream) == stream[..i]
    decreases i
  {
    if i > 0 {
      UntilEmptyAt(stream[1..], i - 1);
      assert stream[..i] == [stream[0]] + stream[1..][..i - 1];
    }
  }

  /** The shell line that clears the device log. */
  const ClearCommand: string := "\"" + AdbPath + "\" logcat -c"

  /** Everything a deploy run leaves behind: the copy phase, the shell
      commands issued, the runner's error lines, the log lines printed,
      and the exit status. */
  datatype DeployRun = DeployRun(sync: SyncRun, commands: seq<string>, errors: seq<string>,
                                 printed: seq<string>, exitCode: int)

  /** The push commands of a copy phase, in order. */
  function PushCommands(acts: seq<SyncAction>): seq<string> {
    if acts == [] then []
    else
      var a := acts[|acts| - 1];
      PushCommands(acts[..|acts| - 1]) + (if a.Pushed? then [a.command] else [])
  }

  /** The issued pushes are the pushes of the pushed files, one for one
      and in order. */
  lemma {:induction false} PushCommandsMatchPushes(acts: seq<SyncAction>)
    requires forall i :: 0 <= i < |acts| && acts[i].Pushed? ==> acts[i].command == PushCommand(acts[i].local)
    ensures |PushCommands(acts)| == |Pushes(acts)|
    ensures forall i :: 0 <= i < |Pushes(acts)| ==> PushCommands(acts)[i] == PushCommand(Pushes(acts)[i])
    decreases |acts|
  {
    if acts != [] {
      var n := |acts| - 1;
      PushCommandsMatchPushes(acts[..n]);
    }
  }

  /** The commands of a run: the pushes of the pushed files, in order,
      then the log clear. */
  lemma {:induction false} ClearAfterPushes(acts: seq<SyncAction>)
    requires forall i :: 0 <= i < |acts| && acts[i].Pushed? ==> acts[i].command == PushCommand(acts[i].local)
    ensures var commands := PushCommands(acts) + [ClearCommand];
      && |commands| == |Pushes(acts)| + 1
      && (forall i :: 0 <= i < |Pushes(acts)| ==> commands[i] == PushCommand(Pushes(acts)[i]))
      && commands[|Pushes(acts)|] == ClearCommand
  {
    PushCommandsMatchPushes(acts);
    Snoc(PushCommands(acts), ClearCommand);
  }

  /** The lines the runner printed for the failed pushes, in order. */
  function SyncErrors(acts: seq<SyncAction>): seq<string> {
    if acts == [] then []
    else
      var a := acts[|acts| - 1];
      SyncErrors(acts[..|acts| - 1]) + (if a.Pushed? then a.report.printed else [])
  }

  /** The copy phase prints no error line exactly when every push it
      issued succeeded. */
  lemma {:induction false} SyncErrorsIff(acts: seq<SyncAction>)
    requires forall i :: 0 <= i < |acts| && acts[i].Pushed? ==> Quiet(acts[i].report)
    ensures SyncErrors(acts) == [] <==> forall i :: 0 <= i < |acts| && acts[i].Pushed? ==> acts[i].report.ok
    decreases |acts|
  {
    if acts != [] {
      var n := |acts| - 1;
      Take(acts, n);
      SyncErrorsIff(acts[..n]);
    }
  }

  /** The script's main path: copy, clear the log, stream the log. A
      missing adb binary ends the run with status 1 before anything is
      issued; otherwise the run ends with status 0. `result(i)` is what the push of manifest entry `i` returns,
      `clearResult` what clearing the log returns, and `stream` what the
      log yields, read by read. */
  method DeployMain(adbExists: bool, root: string, sep: char, present: string -> bool,
                    result: nat -> ProcessResult, clearResult: ProcessResult, stream: seq<string>)
    returns (run: DeployRun)
    ensures run.exitCode == (if adbExists then 0 else 1)
    ensures !adbExists ==> run.sync.AdbMissing? && run.commands == [] && run.errors == [] && run.printed == []
    ensures adbExists ==> run.sync == SyncFiles(adbExists, root, sep, present, result)
    ensures adbExists ==>
      var existing := LocalsWhere(root, sep, FilesToSync, present, true);
      && |run.commands| == |existing| + 1
      && (forall i :: 0 <= i < |existing| ==> run.commands[i] == PushCommand(existing[i]))
      && run.commands[|existing|] == ClearCommand
    ensures adbExists ==> run.errors == SyncErrors(run.sync.actions) + RunCommand(ClearCommand, clearResult).printed
    ensures adbExists ==>
      (run.errors == [] <==>
         && (forall i :: 0 <= i < |run.sync.actions| && run.sync.actions[i].Pushed? ==> run.sync.actions[i].report.ok)
         && clearResult.returnCode == 0)
    ensures adbExists ==> run.printed == Formatted(UntilEmpty(stream))
  {
    var sync := SyncFiles(adbExists, root, sep, present, result);
    if sync.AdbMissing? {
      return DeployRun(sync, [], [], [], 1);
    }
    SyncSplitsByExistence(root, sep, FilesToSync, present, result);
    SyncEntriesSpec(root, sep, FilesToSync, present, result);
    ClearAfterPushes(sync.actions);
    SyncErrorsIff(sync.actions);
    var commands := PushCommands(sync.actions) + [ClearCommand];
    var errors := SyncErrors(sync.actions) + RunCommand(ClearCommand, clearResult).printed;
    var printed := StreamLogs(stream);
    return DeployRun(sync, commands, errors, printed, 0);
  }
}

=== FILE: release.dfy ===
/** The release script end to end: it reads `_meta.lua`, asks for the new
    version, rewrites the file, asks for confirmation, and then issues the
    five git commands through a runner that exits at the first failure.

    The file, the two answers, the current branch and the outcome of each
    git command are parameters: the model performs no I/O. */
module Release {
  import opened Wrappers
  import opened Text
  import opened VersionStore

  /** One git invocation of the release. */
  datatype GitCommand =
    | Add(path: string)
    | Commit(message: string)
    | Tag(name: string)
    | Push(remote: string, target: string)

  /** The shell line the script hands to its runner for `c`. */
  function CommandLine(c: GitCommand): string {
    match c
    case Add(p) => "git add \"" + p + "\""
    case Commit(m) => "git commit -m \"" + m + "\""
    case Tag(n) => "git tag " + n
    case Push(r, t) => "git push " + r + " " + t
  }

  const CommitPrefix: string := "Bump version to "

  const Remote: string := "origin"

  function CommitMessage(version: string): string {
    CommitPrefix + version
  }

  /** The five commands in the order the script issues them: stage the
      metadata file, commit, tag with the bare version, push the branch,
      push the tag. */
  function GitPlan(metaPath: string, version: string, branch: string): seq<GitCommand> {
    [Add(metaPath), Commit(CommitMessage(version)), Tag(version),
     Push(Remote, branch), Push(Remote, version)]
  }

  /** What a fail-fast run issued, and whether it stopped on a failure. */
  datatype Trace<C> = Trace(issued: seq<C>, failed: bool)

  /** Issues `cmds` in order through a runner that exits as soon as a
      command fails; `fails(k)` says whether the command issued at step
      `k` (counting from 0) fails. The k-th command is issued only when
      the ones before it were issued and all succeeded. */
  function RunFailFast<C>(cmds: seq<C>, fails: nat -> bool): (t: Trace<C>)
    ensures |t.issued| <= |cmds| && t.issued == cmds[..|t.issued|]
    ensures t.failed <==> t.issued != [] && fails(|t.issued| - 1)
    ensures forall k :: 0 <= k < |t.issued| - 1 ==> !fails(k)
    ensures !t.failed ==> t.issued == cmds
    decreases |cmds|
  {
    if cmds == [] then Trace([], false)
    else
      var before := RunFailFast(cmds[..|cmds| - 1], fails);
      if before.failed then
        Trace(before.issued, true)
      else
        assert before.issued == cmds[..|cmds| - 1];
        Trace(cmds, fails(|cmds| - 1))
  }

  /** The run stops at the first failing step: when step `k` fails and
      none before it does, exactly the first `k + 1` commands are issued
      and the run has failed. */
  lemma {:induction false} StopsAtFirstFailure<C>(cmds: seq<C>, fails: nat -> bool, k: nat)
    requires k < |cmds| && fails(k)
    requires forall j :: 0 <= j < k ==> !fails(j)
    ensures RunFailFast(cmds, fails).issued == cmds[..k + 1]
    ensures RunFailFast(cmds, fails).failed
  {
  }

  /** When no step fails, every command is issued and the run succeeds. */
  lemma {:induction false} RunsToEnd<C>(cmds: seq<C>, fails: nat -> bool)
    requires forall j :: 0 <= j < |cmds| ==> !fails(j)
    ensures RunFailFast(cmds, fails) == Trace(cmds, false)
  {
  }

  /** The confirmation gate: the answer, lowercased and not trimmed, must
      be `s`. */
  predicate Confirmed(answer: string) {
    Lower(answer) == "s"
  }

  /** Exactly the answers `s` and `S` confirm; ` s` or `sim` do not. */
  lemma {:induction false} ConfirmedIff(answer: string)
    ensures Confirmed(answer) <==> answer == "s" || answer == "S"
  {
    if Confirmed(answer) {
      assert |answer| == 1;
      assert LowerChar(answer[0]) == 's';
      assert answer == [answer[0]];
    }
  }

  /** How a release run ended. */
  datatype Outcome =
    | FileMissing     // `_meta.lua` does not exist
    | KeyMissing      // the file has no `version = "…"` assignment
    | Cancelled       // the new version is empty once trimmed
    | EscapedToken    // the token holds a backslash, which `re.sub` reads as a template escape
    | Declined        // the file was rewritten, but git was not confirmed
    | GitFailed       // a git command failed and the runner exited
    | Released        // all five git commands succeeded

  /** Everything a run leaves behind: the file content written (if any),
      the git commands issued, and the exit status. */
  datatype ReleaseRun = ReleaseRun(outcome: Outcome, written: Option<string>, issued: seq<GitCommand>, exitCode: int)

  function ExitCode(o: Outcome): int {
    match o
    case FileMissing => 1
    case KeyMissing => 1
    case GitFailed => 1
    case EscapedToken => 1
    case _ => 0
  }

  /** The run ended without an error status. */
  predicate Clean(o: Outcome) {
    o.Cancelled? || o.Declined? || o.Released?
  }

  /** The run got as far as rewriting `_meta.lua`. */
  predicate Wrote(o: Outcome) {
    o.Declined? || o.GitFailed? || o.Released?
  }

  /** The run got as far as issuing git commands. */
  predicate RanGit(o: Outcome) {
    o.GitFailed? || o.Released?
  }

  /** The release run with the corrected normalisation, which the rest of
      the model uses. `meta` is the content of `_meta.lua`, `None` when
      the file does not exist; `answer` is the typed new version,
      `confirm` the answer to the confirmation prompt, `branch` what
      `get_current_branch` returns, and `fails` the outcome of each git
      step. It differs from the script only on an answer that trims to a
      lone `v` or `V` (see `ScriptAgrees`). */
  function ReleaseMain(metaPath: string, meta: Option<string>, answer: string, confirm: string,
                       branch: string, fails: nat -> bool): (r: ReleaseRun)
    ensures r.exitCode == 0 <==> Clean(r.outcome)
    ensures r.written.Some? <==> Wrote(r.outcome)
    ensures r.issued != [] <==> RanGit(r.outcome)
    ensures r.outcome.FileMissing? <==> meta.None?
    ensures r.outcome.KeyMissing? <==> meta.Some? && Extract(meta.value).None?
    ensures r.outcome.Cancelled? <==> meta.Some? && Extract(meta.value).Some? && Normalize(answer).None?
    ensures r.issued != [] ==> Confirmed(confirm)
  {
    match meta
    case None => ReleaseRun(FileMissing, None, [], ExitCode(FileMissing))
    case Some(content) => ReleaseFrom(metaPath, content, Normalize(answer), confirm, branch, fails)
  }

  /** The script's main path as written: the same run, with the answer
      normalised as the script does it, so an answer that trims to `v`
      goes on as the empty token. */
  function ScriptMain(metaPath: string, meta: Option<string>, answer: string, confirm: string,
                      branch: string, fails: nat -> bool): (r: ReleaseRun)
    ensures r.exitCode == 0 <==> Clean(r.outcome)
    ensures r.written.Some? <==> Wrote(r.outcome)
    ensures r.issued != [] <==> RanGit(r.outcome)
    ensures r.outcome.FileMissing? <==> meta.None?
    ensures r.outcome.KeyMissing? <==> meta.Some? && Extract(meta.value).None?
    ensures r.outcome.Cancelled? <==> meta.Some? && Extract(meta.value).Some? && Strip(answer) == []
    ensures r.issued != [] ==> Confirmed(confirm)
  {
    match meta
    case None => ReleaseRun(FileMissing, None, [], ExitCode(FileMissing))
    case Some(content) => ReleaseFrom(metaPath, content, NormalizeAsWritten(answer), confirm, branch, fails)
  }

  /** The run once `_meta.lua` has been read; `normalized` is the typed
      answer after normalisation. */
  function ReleaseFrom(metaPath: string, content: string, normalized: Option<string>, confirm: string,
                       branch: string, fails: nat -> bool): (r: ReleaseRun)
    ensures r.exitCode == 0 <==> Clean(r.outcome)
    ensures r.written.Some? <==> Wrote(r.outcome)
    ensures r.issued != [] <==> RanGit(r.outcome)
    ensures !r.outcome.FileMissing?
    ensures r.outcome.KeyMissing? <==> Extract(content).None?
    ensures r.outcome.Cancelled? <==> Extract(content).Some? && normalized.None?
    ensures r.issued != [] ==> Confirmed(confirm)
  {
    if Extract(content).None? then ReleaseRun(KeyMissing, None, [], ExitCode(KeyMissing))
    else ReleaseAnswered(metaPath, content, normalized, confirm, branch, fails)
  }

  /** The corrected run and the script's run agree on every input except
      a readable store with an answer that trims to a lone `v` or `V`. */
  lemma {:induction false} ScriptAgrees(metaPath: string, meta: Option<string>, answer: string, confirm: string,
                                       branch: string, fails: nat -> bool)
    ensures ScriptMain(metaPath, meta, answer, confirm, branch, fails)
         != ReleaseMain(metaPath, meta, answer, confirm, branch, fails)
      <==> meta.Some? && Extract(meta.value).Some? && (Strip(answer) == "v" || Strip(answer) == "V")
  {
    NormalizeAgrees(answer);
  }

  /** As written, the answer `v` on a store holding `version = "P"`
      writes `version = ""`, a store with no version left to read, and the
      run goes on to the gate: once confirmed, with no git failure, it
      issues the plan for the empty version, `git tag ` and
      `git push origin ` included. The corrected run cancels and
      writes nothing. */
  lemma {:induction false} ScriptBareV(metaPath: string, prior: string, answer: string, confirm: string,
                                      branch: string, fails: nat -> bool)
    requires prior != [] && '"' !in prior
    requires Strip(answer) == "v" || Strip(answer) == "V"
    ensures var r := ScriptMain(metaPath, Some(Canonical(prior)), answer, confirm, branch, fails);
      && r.written == Some(Canonical([]))
      && Extract(r.written.value).None?
      && (Confirmed(confirm) && (forall j :: 0 <= j < 5 ==> !fails(j)) ==>
            r.outcome == Released && r.issued == GitPlan(metaPath, [], branch))
    ensures var c := ReleaseMain(metaPath, Some(Canonical(prior)), answer, confirm, branch, fails);
      c.outcome == Cancelled && c.written.None?
  {
    var content := Canonical(prior);
    CanonicalReadable(prior);
    BareVEmpty(answer);
    assert ScriptMain(metaPath, Some(content), answer, confirm, branch, fails)
      == Publish(metaPath, content, [], confirm, branch, fails);
    RewriteCanonical(prior, []);
    EmptyCanonicalUnread();
    if Confirmed(confirm) && (forall j :: 0 <= j < 5 ==> !fails(j)) {
      RunsToEnd(GitPlan(metaPath, [], branch), fails);
    }
  }

  lemma {:induction false} BareVEmpty(answer: string)
    requires Strip(answer) == "v" || Strip(answer) == "V"
    ensures NormalizeAsWritten(answer) == Some([]) && Normalize(answer) == None
  {
    var t := Strip(answer);
    assert IsVPrefix(t[0]) && |t| == 1;
    assert t[1..] == [];
  }

  /** The run once a current version has been found: the normalised
      answer decides whether the file is rewritten. */
  function ReleaseAnswered(metaPath: string, content: string, normalized: Option<string>, confirm: string,
                           branch: string, fails: nat -> bool): (r: ReleaseRun)
    ensures r.exitCode == 0 <==> Clean(r.outcome)
    ensures r.written.Some? <==> Wrote(r.outcome)
    ensures r.issued != [] <==> RanGit(r.outcome)
    ensures !r.outcome.FileMissing? && !r.outcome.KeyMissing?
    ensures r.outcome.Cancelled? <==> normalized.None?
    ensures r.issued != [] ==> Confirmed(confirm)
  {
    match normalized
    case None => ReleaseRun(Cancelled, None, [], ExitCode(Cancelled))
    case Some(token) =>
      if '\\' in token then ReleaseRun(EscapedToken, None, [], ExitCode(EscapedToken))
      else Publish(metaPath, content, token, confirm, branch, fails)
  }

  /** From the rewrite on: the file is written with the new token, then
      the gate decides whether the git commands run. */
  function Publish(metaPath: string, content: string, token: string, confirm: string,
                   branch: string, fails: nat -> bool): (r: ReleaseRun)
    requires '\\' !in token
    ensures r.written == Some(Rewrite(content, token))
    ensures r.exitCode == 0 <==> Clean(r.outcome)
    ensures Wrote(r.outcome)
    ensures r.issued != [] <==> RanGit(r.outcome)
    ensures r.issued != [] ==> Confirmed(confirm)
  {
    var written := Rewrite(content, token);
    if !Confirmed(confirm) then ReleaseRun(Declined, Some(written), [], ExitCode(Declined))
    else
      var t := RunFailFast(GitPlan(metaPath, token, branch), fails);
      var o := if t.failed then GitFailed else Released;
      ReleaseRun(o, Some(written), t.issued, ExitCode(o))
  }

  /** Whatever happens to git, a run that writes the file writes the new
      token into it: reading the file back yields the normalised answer,
      for a token with no `"` and no backslash. */
  lemma {:induction false} ReleaseRoundTrip(metaPath: string, content: string, answer: string, confirm: string,
                         branch: string, fails: nat -> bool)
    requires Normalize(answer).Some? && ValidToken(Normalize(answer).value)
    requires Extract(content).Some?
    ensures var r := ReleaseMain(metaPath, Some(content), answer, confirm, branch, fails);
      && r.written.Some?
      && Extract(r.written.value) == Normalize(answer)
  {
    var token := Normalize(answer).value;
    assert ReleaseMain(metaPath, Some(content), answer, confirm, branch, fails)
      == Publish(metaPath, content, token, confirm, branch, fails);
    RoundTrip(content, token);
  }

  /** As written, a store that cannot be read, or an answer that is blank
      once trimmed, leaves the file untouched and issues nothing; the
      exit status is 1 for the store and 0 for the blank answer. */
  lemma {:induction false} NothingWrittenOnAbort(metaPath: string, content: string, answer: string, confirm: string,
                              branch: string, fails: nat -> bool)
    requires Extract(content).None? || Strip(answer) == []
    ensures var r := ScriptMain(metaPath, Some(content), answer, confirm, branch, fails);
      && r.written.None? && r.issued == []
      && r.exitCode == (if Extract(content).None? then 1 else 0)
  {
  }

  /** A declined confirmation issues no git command, though the file has
      already been rewritten, and the run ends with status 0. */
  lemma {:induction false} DeclinedKeepsRewrite(metaPath: string, content: string, answer: string, confirm: string,
                             branch: string, fails: nat -> bool)
    requires Extract(content).Some? && Normalize(answer).Some? && '\\' !in Normalize(answer).value
    requires !Confirmed(confirm)
    ensures var r := ReleaseMain(metaPath, Some(content), answer, confirm, branch, fails);
      && r.issued == []
      && r.written == Some(Rewrite(content, Normalize(answer).value))
      && r.exitCode == 0
  {
  }

  /** When git step `k` is the first to fail, the commands before it and
      the failing one are issued, in the fixed order, nothing after it,
      and the run exits with status 1. */
  lemma {:induction false} GitAbortsAt(metaPath: string, content: string, answer: string, confirm: string,
                    branch: string, fails: nat -> bool, k: nat)
    requires Extract(content).Some? && Normalize(answer).Some? && '\\' !in Normalize(answer).value
    requires Confirmed(confirm)
    requires k < 5 && fails(k) && forall j :: 0 <= j < k ==> !fails(j)
    ensures var r := ReleaseMain(metaPath, Some(content), answer, confirm, branch, fails);
      && r.issued == GitPlan(metaPath, Normalize(answer).value, branch)[..k + 1]
      && r.outcome == GitFailed
      && r.exitCode == 1
  {
    StopsAtFirstFailure(GitPlan(metaPath, Normalize(answer).value, branch), fails, k);
  }

  /** A confirmed run where no git step fails issues the whole plan and
      ends with status 0. */
  lemma {:induction false} ReleaseSucceeds(metaPath: string, content: string, answer: string, confirm: string,
                        branch: string, fails: nat -> bool)
    requires Extract(content).Some? && Normalize(answer).Some? && '\\' !in Normalize(answer).value
    requires Confirmed(confirm)
    requires forall j :: 0 <= j < 5 ==> !fails(j)
    ensures var r := ReleaseMain(metaPath, Some(content), answer, confirm, branch, fails);
      && r.outcome == Released && r.exitCode == 0
      && r.issued == GitPlan(metaPath, Normalize(answer).value, branch)
  {
    RunsToEnd(GitPlan(metaPath, Normalize(answer).value, branch), fails);
  }

  /** The shell lines of the plan: the commit names the version and the
      tag is the bare version, with no prefix added. */
  lemma {:induction false} PlanLines(metaPath: string, version: string, branch: string)
    ensures var plan := GitPlan(metaPath, version, branch);
      && |plan| == 5
      && CommandLine(plan[0]) == "git add \"" + metaPath + "\""
      && CommandLine(plan[1]) == "git commit -m \"Bump version to " + version + "\""
      && CommandLine(plan[2]) == "git tag " + version
      && CommandLine(plan[3]) == "git push origin " + branch
      && CommandLine(plan[4]) == "git push origin " + version
  {
    assert "git commit -m \"" + (CommitPrefix + version) + "\"" == "git commit -m \"Bump version to " + version + "\"";
  }
}

=== FILE: text.dfy ===
/** The Python string operations the scripts use, `strip()`, `lower()`,
    `in`, `startswith` and `replace`, written out on `seq<char>`, with
    `count`, `split` and `join`, which the scripts do not call, to state
    what `replace` does. */
module Text {

  /** Python's whitespace: the 29 code points `str.isspace()` accepts,
      which is also the set the regular-expression class `\s` matches on
      text. */
  predicate IsSpace(c: char) {
    var n := c as int;
    || 9 <= n <= 13
    || 28 <= n <= 32
    || n == 0x85 || n == 0xA0 || n == 0x1680
    || 0x2000 <= n <= 0x200A
    || n == 0x2028 || n == 0x2029 || n == 0x202F || n == 0x205F || n == 0x3000
  }

  predicate AllSpace(w: string) {
    forall i :: 0 <= i < |w| ==> IsSpace(w[i])
  }

  /** `str.lstrip()`: the longest all-whitespace prefix is dropped. */
  function LStrip(s: string): (r: string)
    ensures |r| <= |s| && r == s[|s| - |r|..]
    ensures r == [] || !IsSpace(r[0])
  {
    if s != [] && IsSpace(s[0]) then LStrip(s[1..]) else s
  }

  /** What `lstrip` drops is all whitespace. */
  lemma {:induction false} LStripDropsSpaces(s: string)
    ensures AllSpace(s[..|s| - |LStrip(s)|])
  {
    if s != [] && IsSpace(s[0]) {
      LStripDropsSpaces(s[1..]);
      AllSpaceCons(s, |s| - |LStrip(s)|);
    }
  }

  /** A prefix whose head is whitespace and whose tail past the head is
      all whitespace is all whitespace. */
  lemma {:induction false} AllSpaceCons(s: string, k: nat)
    requires 1 <= k <= |s| && IsSpace(s[0]) && AllSpace(s[1..][..k - 1])
    ensures AllSpace(s[..k])
  {
    forall i | 0 <= i < k
      ensures IsSpace(s[..k][i])
    {
      if i > 0 {
        assert s[..k][i] == s[1..][..k - 1][i - 1];
      }
    }
  }

  lemma {:induction false} SplitAt<T>(s: seq<T>, k: nat)
    requires k <= |s|
    ensures s == s[..k] + s[k..]
  {
  }

  lemma {:induction false} HeadOfConcat(l: string, y: string)
    requires l != []
    ensures (l + y)[0] == l[0] && (l + y)[1..] == l[1..] + y
  {
  }

  /** `str.rstrip()`: the longest all-whitespace suffix is dropped. */
  function RStrip(s: string): (r: string)
    ensures |r| <= |s| && r == s[..|r|]
    ensures AllSpace(s[|r|..])
    ensures r == [] || !IsSpace(r[|r| - 1])
  {
    if s != [] && IsSpace(s[|s| - 1]) then
      var r := RStrip(s[..|s| - 1]);
      RStripStep(s, r);
      r
    else s
  }

  /** Dropping one trailing space and then a prefix of what is left still
      leaves a prefix of the whole, with only whitespace after it. */
  lemma {:induction false} RStripStep(s: string, r: string)
    requires s != [] && IsSpace(s[|s| - 1])
    requires |r| <= |s| - 1 && r == s[..|s| - 1][..|r|]
    requires AllSpace(s[..|s| - 1][|r|..])
    ensures r == s[..|r|]
    ensures AllSpace(s[|r|..])
  {
    var init := s[..|s| - 1][|r|..];
    forall i | 0 <= i < |s| - |r|
      ensures IsSpace(s[|r|..][i])
    {
      if i < |init| {
        assert s[|r|..][i] == init[i];
      }
    }
  }

  /** `str.strip()`: whitespace is removed from both ends, so the result
      neither starts nor ends with whitespace. */
  function Strip(s: string): (r: string)
    ensures r == [] || (!IsSpace(r[0]) && !IsSpace(r[|r| - 1]))
  {
    var l := LStrip(s);
    var r := RStrip(l);
    assert r == [] || r[0] == l[0];
    r
  }

  /** `strip` removes nothing but whitespace at the two ends: the input
      is the stripped text with whitespace around it. */
  lemma {:induction false} StripSlice(s: string) returns (w1: string, w2: string)
    ensures AllSpace(w1) && AllSpace(w2)
    ensures s == w1 + Strip(s) + w2
  {
    var l := LStrip(s);
    var r := RStrip(l);
    LStripDropsSpaces(s);
    w1 := s[..|s| - |l|];
    w2 := l[|r|..];
    Glue(s, w1, l, r, w2);
  }

  lemma {:induction false} Glue(s: string, w1: string, l: string, r: string, w2: string)
    requires |w1| <= |s| && w1 == s[..|w1|] && l == s[|w1|..]
    requires |r| <= |l| && r == l[..|r|] && w2 == l[|r|..]
    ensures s == w1 + r + w2
  {
    assert s == w1 + l;
    assert l == r + w2;
  }

  lemma {:induction false} LStripPadded(w: string, x: string)
    requires AllSpace(w)
    requires x == [] || !IsSpace(x[0])
    ensures LStrip(w + x) == x
  {
    if w != [] {
      assert (w + x)[1..] == w[1..] + x;
      LStripPadded(w[1..], x);
    }
  }

  lemma {:induction false} RStripPadded(x: string, w: string)
    requires AllSpace(w)
    requires x == [] || !IsSpace(x[|x| - 1])
    ensures RStrip(x + w) == x
  {
    if w != [] {
      assert (x + w)[..|x + w| - 1] == x + w[..|w| - 1];
      RStripPadded(x, w[..|w| - 1]);
    } else {
      assert x + w == x;
    }
  }

  /** Whitespace around a text that neither starts nor ends with
      whitespace is exactly what `strip` removes. */
  lemma {:induction false} StripPadded(w1: string, x: string, w2: string)
    requires AllSpace(w1) && AllSpace(w2)
    requires x != [] && !IsSpace(x[0]) && !IsSpace(x[|x| - 1])
    ensures Strip(w1 + x + w2) == x
  {
    assert w1 + x + w2 == w1 + (x + w2);
    LStripPadded(w1, x + w2);
    RStripPadded(x, w2);
  }

  /** `strip` of an all-whitespace text is empty. */
  lemma {:induction false} StripAllSpace(w: string)
    requires AllSpace(w)
    ensures Strip(w) == []
  {
    assert w + [] == w;
    LStripPadded(w, []);
  }

  /** `str.lower()` restricted to ASCII letters. */
  function LowerChar(c: char): char {
    if 'A' <= c <= 'Z' then (c as int + 32) as char else c
  }

  function Lower(s: string): (r: string)
    ensures |r| == |s|
    ensures forall i :: 0 <= i < |s| ==> r[i] == LowerChar(s[i])
  {
    seq(|s|, i requires 0 <= i < |s| => LowerChar(s[i]))
  }

  predicate StartsWith(s: string, p: string) {
    |p| <= |s| && s[..|p|] == p
  }

  predicate OccursAt(s: string, p: string, i: nat) {
    i + |p| <= |s| && s[i..i + |p|] == p
  }

  /** Python's `p in s`. */
  predicate Contains(s: string, p: string) {
    exists i: nat | i <= |s| :: OccursAt(s, p, i)
  }

  /** `s.count(p)`: non-overlapping occurrences, found left to right. */
  function Count(s: string, p: string): (n: nat)
    requires p != []
    ensures n * |p| <= |s|
  {
    if s == [] then 0
    else if StartsWith(s, p) then 1 + Count(s[|p|..], p)
    else Count(s[1..], p)
  }

  /** `s.split(p)`: the text between consecutive non-overlapping
      occurrences, found left to right. */
  function Split(s: string, p: string): (pieces: seq<string>)
    requires p != []
    ensures |pieces| >= 1
  {
    if s == [] then [[]]
    else if StartsWith(s, p) then [[]] + Split(s[|p|..], p)
    else
      var t := Split(s[1..], p);
      [[s[0]] + t[0]] + t[1..]
  }

  /** `sep.join(pieces)`. */
  function Join(pieces: seq<string>, sep: string): string
    requires |pieces| >= 1
  {
    if |pieces| == 1 then pieces[0] else pieces[0] + sep + Join(pieces[1..], sep)
  }

  /** `s.replace(p, e)`: every non-overlapping occurrence, left to right. */
  function ReplaceAll(s: string, p: string, e: string): string
    requires p != []
  {
    if s == [] then []
    else if StartsWith(s, p) then e + ReplaceAll(s[|p|..], p, e)
    else [s[0]] + ReplaceAll(s[1..], p, e)
  }

  lemma {:induction false} JoinEmptyHead(pieces: seq<string>, sep: string)
    requires |pieces| >= 1
    ensures Join([[]] + pieces, sep) == sep + Join(pieces, sep)
  {
    var ps := [[]] + pieces;
    assert ps[1..] == pieces;
  }

  lemma {:induction false} StartsWithPrefix(a: string, b: string, p: string)
    requires StartsWith(b, a)
    ensures StartsWith(a, p) ==> StartsWith(b, p)
  {
    if StartsWith(a, p) {
      assert b[..|p|] == a[..|p|];
    }
  }

  lemma {:induction false} JoinCons(x: string, pieces: seq<string>, sep: string)
    requires |pieces| >= 1
    ensures Join([x + pieces[0]] + pieces[1..], sep) == x + Join(pieces, sep)
  {
    var ps := [x + pieces[0]] + pieces[1..];
    if |pieces| > 1 {
      assert ps[1..] == pieces[1..];
    }
  }

  /** Splitting and joining back with the same separator gives the text
      back: the pieces and the occurrences between them cover `s`. */
  lemma {:induction false} SplitJoin(s: string, p: string)
    requires p != []
    ensures Join(Split(s, p), p) == s
  {
    if s == [] {
    } else if StartsWith(s, p) {
      SplitJoin(s[|p|..], p);
      JoinEmptyHead(Split(s[|p|..], p), p);
      assert s == s[..|p|] + s[|p|..];
    } else {
      SplitJoin(s[1..], p);
      JoinCons([s[0]], Split(s[1..], p), p);
      assert s == [s[0]] + s[1..];
    }
  }

  /** `replace` keeps every piece `split` finds and puts `e` where each
      occurrence was: nothing but the occurrences changes. */
  lemma {:induction false} ReplaceAllIsJoin(s: string, p: string, e: string)
    requires p != []
    ensures ReplaceAll(s, p, e) == Join(Split(s, p), e)
  {
    if s == [] {
    } else if StartsWith(s, p) {
      ReplaceAllIsJoin(s[|p|..], p, e);
      JoinEmptyHead(Split(s[|p|..], p), e);
    } else {
      ReplaceAllIsJoin(s[1..], p, e);
      JoinCons([s[0]], Split(s[1..], p), e);
    }
  }

  /** There is one more piece than there are occurrences counted. */
  lemma {:induction false} SplitCount(s: string, p: string)
    requires p != []
    ensures |Split(s, p)| == Count(s, p) + 1
  {
    if s == [] {
    } else if StartsWith(s, p) {
      SplitCount(s[|p|..], p);
    } else {
      SplitCount(s[1..], p);
    }
  }

  lemma {:induction false} ContainsShift(c: char, s: string, p: string)
    ensures Contains(s, p) ==> Contains([c] + s, p)
  {
    if Contains(s, p) {
      var i: nat :| i <= |s| && OccursAt(s, p, i);
      assert ([c] + s)[i + 1..i + 1 + |p|] == s[i..i + |p|];
      assert OccursAt([c] + s, p, i + 1);
    }
  }

  lemma {:induction false} ContainsUnshift(c: char, s: string, p: string)
    requires Contains([c] + s, p)
    requires !StartsWith([c] + s, p)
    ensures Contains(s, p)
  {
    var i: nat :| i <= |[c] + s| && OccursAt([c] + s, p, i);
    assert i != 0;
    assert s[i - 1..i - 1 + |p|] == ([c] + s)[i..i + |p|];
    assert OccursAt(s, p, i - 1);
  }

  /** No piece contains the separator: `split` cuts at every occurrence. */
  lemma {:induction false} SplitPiecesFree(s: string, p: string)
    requires p != []
    ensures forall i :: 0 <= i < |Split(s, p)| ==> !Contains(Split(s, p)[i], p)
  {
    if s == [] {
      assert Split(s, p) == [[]];
    } else if StartsWith(s, p) {
      SplitPiecesFree(s[|p|..], p);
      var ps := [[]] + Split(s[|p|..], p);
      assert ps[1..] == Split(s[|p|..], p);
    } else {
      var t := Split(s[1..], p);
      SplitPiecesFree(s[1..], p);
      var first := [s[0]] + t[0];
      SplitJoin(s[1..], p);
      PrefixOfJoin(t, p);
      assert s == [s[0]] + Join(t, p);
      assert StartsWith(s, first);
      StartsWithPrefix(first, s, p);
      if Contains(first, p) {
        ContainsUnshift(s[0], t[0], p);
      }
      assert !Contains(first, p);
      var ps := [first] + t[1..];
      assert forall i :: 1 <= i < |ps| ==> ps[i] == t[i];
    }
  }

  /** `pieces` is `s` cut at its leftmost occurrence of `p` first: the
      first piece runs up to that occurrence (or to the end when there is
      none), and the rest are the split of what follows it. */
  predicate LeftmostCut(s: string, p: string, pieces: seq<string>)
    requires p != []
  {
    var k := if pieces == [] then 0 else |pieces[0]|;
    && pieces != []
    && k <= |s| && pieces[0] == s[..k]
    && (forall i :: 0 <= i < k ==> !OccursAt(s, p, i))
    && (|pieces| == 1 ==> k == |s|)
    && (|pieces| > 1 ==> OccursAt(s, p, k) && pieces[1..] == Split(s[k + |p|..], p))
  }

  /** `split` cuts at the leftmost occurrence first. With the
      non-overlapping scan this fixes the pieces even for a separator
      that can overlap itself. */
  lemma {:induction false} SplitLeftmost(s: string, p: string)
    requires p != []
    ensures LeftmostCut(s, p, Split(s, p))
  {
    if s == [] {
    } else if StartsWith(s, p) {
      SplitLeftmostAtStart(s, p);
    } else {
      SplitLeftmost(s[1..], p);
      SplitLeftmostStep(s, p, Split(s[1..], p));
    }
  }

  lemma {:induction false} SplitLeftmostAtStart(s: string, p: string)
    requires p != [] && StartsWith(s, p)
    ensures LeftmostCut(s, p, Split(s, p))
  {
    var ps := [[]] + Split(s[|p|..], p);
    assert Split(s, p) == ps;
    assert ps[1..] == Split(s[|p|..], p);
    assert s[0..|p|] == s[..|p|];
  }

  lemma {:induction false} SplitLeftmostStep(s: string, p: string, t: seq<string>)
    requires p != [] && s != [] && !StartsWith(s, p)
    requires t == Split(s[1..], p) && LeftmostCut(s[1..], p, t)
    ensures LeftmostCut(s, p, Split(s, p))
  {
    var k := 1 + |t[0]|;
    var ps := [[s[0]] + t[0]] + t[1..];
    assert Split(s, p) == ps;
    ConsSlice(s, k);
    forall i | 0 <= i < k
      ensures !OccursAt(s, p, i)
    {
      if i == 0 {
        assert |p| <= |s| ==> s[0..|p|] == s[..|p|];
      } else {
        ShiftOccurs(s, p, i);
      }
    }
    if |t| > 1 {
      ShiftOccurs(s, p, k);
      assert ps[1..] == t[1..];
      assert s[1..][k - 1 + |p|..] == s[k + |p|..];
    }
  }

  lemma {:induction false} ConsSlice(s: string, k: nat)
    requires 1 <= k <= |s|
    ensures [s[0]] + s[1..][..k - 1] == s[..k]
  {
  }

  /** An occurrence at offset `i > 0` is an occurrence at `i - 1` in the
      tail. */
  lemma {:induction false} ShiftOccurs(s: string, p: string, i: nat)
    requires 1 <= i <= |s|
    ensures OccursAt(s, p, i) <==> OccursAt(s[1..], p, i - 1)
  {
    if i + |p| <= |s| {
      var here, there := s[i..i + |p|], s[1..][i - 1..i - 1 + |p|];
      assert forall j :: 0 <= j < |p| ==> here[j] == there[j];
      assert here == there;
    }
  }

  lemma {:induction false} PrefixOfJoin(pieces: seq<string>, sep: string)
    requires |pieces| >= 1
    ensures StartsWith(Join(pieces, sep), pieces[0])
  {
  }

  /** `p in s` exactly when `s.count(p)` is positive. */
  lemma {:induction false} CountPositiveIffContains(s: string, p: string)
    requires p != []
    ensures Count(s, p) > 0 <==> Contains(s, p)
  {
    if s == [] {
    } else if StartsWith(s, p) {
      assert OccursAt(s, p, 0);
    } else {
      CountPositiveIffContains(s[1..], p);
      assert s == [s[0]] + s[1..];
      ContainsShift(s[0], s[1..], p);
      if Contains(s, p) {
        ContainsUnshift(s[0], s[1..], p);
      }
    }
  }

  /** A text without the pattern is left as it is by `replace`. */
  lemma {:induction false} ReplaceAllAbsent(s: string, p: string, e: string)
    requires p != []
    requires !Contains(s, p)
    ensures ReplaceAll(s, p, e) == s
  {
    CountPositiveIffContains(s, p);
    SplitCount(s, p);
    SplitJoin(s, p);
    ReplaceAllIsJoin(s, p, e);
  }
}

=== FILE: version_store.dfy ===
/** The version store of the release script: reading the token out of
    `_meta.lua` with the pattern `version\s*=\s*"([^"]+)"`, normalising
    the operator's new token, and rewriting every assignment to the
    canonical `version = "T"`.

    The pattern is matched by hand. Each part of it is deterministic
    under Python's backtracking: `\s*` must stop before the `=` or the
    quote that follows it, and `[^"]+` must stop at the first quote, so
    the greedy choice is the only one that can succeed. */
module VersionStore {
  import opened Wrappers
  import opened Text

  const Key: string := "version"

  /** What one match yields: the captured token and the text after the
      closing quote. */
  datatype Match = Match(capture: string, rest: string)

  /** A match found by scanning: its offset and what it yields. */
  datatype Hit = Hit(start: nat, m: Match)

  /** The longest prefix without a quote: what `[^"]*` consumes. */
  function UntilQuote(s: string): (r: string)
    ensures |r| <= |s| && r == s[..|r|]
    ensures '"' !in r
    ensures |r| == |s| || s[|r|] == '"'
  {
    if s == [] || s[0] == '"' then [] else [s[0]] + UntilQuote(s[1..])
  }

  /** The text of one match, `version<w1>=<w2>"<capture>"`. */
  function MatchText(w1: string, w2: string, capture: string): string {
    Key + w1 + "=" + w2 + "\"" + capture + "\""
  }

  /** The canonical assignment the rewrite puts in place of each match. */
  function Canonical(token: string): string {
    MatchText(" ", " ", token)
  }

  /** `\s*` and then the character `c`: what follows both, when `s`
      starts that way. */
  function SkipThen(s: string, c: char): (r: Option<string>)
    ensures r.Some? ==> |r.value| < |s| && r.value == s[|s| - |r.value|..]
  {
    var a := LStrip(s);
    if a != [] && a[0] == c then Some(a[1..]) else None
  }

  /** `([^"]+)"`: the capture and the text after the closing quote. */
  function Quoted(s: string): (r: Option<Match>)
    ensures r.Some? ==> r.value.capture != [] && '"' !in r.value.capture
    ensures r.Some? ==> |r.value.rest| < |s| && r.value.rest == s[|s| - |r.value.rest|..]
  {
    var v := UntilQuote(s);
    if v == [] || v == s then None else Some(Match(v, s[|v| + 1..]))
  }

  /** The pattern anchored at the start of `s`. */
  function MatchPrefix(s: string): (r: Option<Match>)
    ensures r.Some? ==> r.value.capture != [] && '"' !in r.value.capture
    ensures r.Some? ==> |r.value.rest| < |s| && r.value.rest == s[|s| - |r.value.rest|..]
  {
    if !StartsWith(s, Key) then None
    else match SkipThen(s[|Key|..], '=')
      case None => None
      case Some(a) =>
        match SkipThen(a, '"')
        case None => None
        case Some(b) => Quoted(b)
  }

  lemma {:induction false} SkipThenSound(s: string, c: char) returns (w: string)
    requires SkipThen(s, c).Some?
    ensures AllSpace(w) && s == w + [c] + SkipThen(s, c).value
  {
    var a := LStrip(s);
    LStripDropsSpaces(s);
    w := s[..|s| - |a|];
    SplitAt(s, |s| - |a|);
    assert a == [c] + a[1..];
    assert s == w + ([c] + a[1..]);
  }

  lemma {:induction false} QuotedSound(s: string)
    requires Quoted(s).Some?
    ensures s == Quoted(s).value.capture + "\"" + Quoted(s).value.rest
  {
    var v := UntilQuote(s);
    assert s == v + s[|v|..];
    assert s[|v|..] == "\"" + s[|v| + 1..];
  }

  /** Every match has the shape the pattern describes. */
  lemma {:induction false} MatchPrefixSound(s: string) returns (w1: string, w2: string)
    requires MatchPrefix(s).Some?
    ensures AllSpace(w1) && AllSpace(w2)
    ensures s == MatchText(w1, w2, MatchPrefix(s).value.capture) + MatchPrefix(s).value.rest
  {
    var m := MatchPrefix(s).value;
    var t := s[|Key|..];
    w1 := SkipThenSound(t, '=');
    var a := SkipThen(t, '=').value;
    w2 := SkipThenSound(a, '"');
    var b := SkipThen(a, '"').value;
    QuotedSound(b);
    KeySplit(s);
    Rebuild(s, t, w1, a, w2, b, m.capture, m.rest);
  }

  lemma {:induction false} KeySplit(s: string)
    requires StartsWith(s, Key)
    ensures s == Key + s[|Key|..]
  {
  }

  lemma {:induction false} Rebuild(s: string, t: string, w1: string, a: string, w2: string, b: string, capture: string, rest: string)
    requires s == Key + t && t == w1 + ['='] + a && a == w2 + ['"'] + b && b == capture + "\"" + rest
    ensures s == MatchText(w1, w2, capture) + rest
  {
  }

  lemma {:induction false} UntilQuoteStops(v: string, rest: string)
    requires '"' !in v
    ensures UntilQuote(v + "\"" + rest) == v
  {
    if v != [] {
      assert (v + "\"" + rest)[1..] == v[1..] + "\"" + rest;
      UntilQuoteStops(v[1..], rest);
    }
  }

  lemma {:induction false} SkipThenComplete(w: string, c: char, rest: string)
    requires AllSpace(w) && !IsSpace(c)
    ensures SkipThen(w + [c] + rest, c) == Some(rest)
  {
    assert w + [c] + rest == w + ([c] + rest);
    LStripPadded(w, [c] + rest);
  }

  lemma {:induction false} QuotedComplete(v: string, rest: string)
    requires v != [] && '"' !in v
    ensures Quoted(v + "\"" + rest) == Some(Match(v, rest))
  {
    UntilQuoteStops(v, rest);
    assert (v + "\"" + rest)[|v|] == '"';
  }

  /** Every text of that shape is matched, with the capture it spells:
      together with `MatchPrefixSound`, the matcher accepts exactly the
      language of the pattern. */
  lemma {:induction false} MatchPrefixComplete(w1: string, w2: string, capture: string, rest: string)
    requires AllSpace(w1) && AllSpace(w2)
    requires capture != [] && '"' !in capture
    ensures MatchPrefix(MatchText(w1, w2, capture) + rest) == Some(Match(capture, rest))
  {
    var s := MatchText(w1, w2, capture) + rest;
    var b := capture + "\"" + rest;
    var a := w2 + "\"" + b;
    assert s[..|Key|] == Key;
    assert s[|Key|..] == w1 + "=" + a;
    SkipThenComplete(w1, '=', a);
    SkipThenComplete(w2, '"', b);
    QuotedComplete(capture, rest);
  }

  /** The pattern matches at offset `i` of `s`. */
  predicate MatchesAt(s: string, i: nat)
    requires i <= |s|
  {
    MatchPrefix(s[i..]).Some?
  }

  lemma {:induction false} SuffixShift(s: string, i: nat)
    requires 1 <= i <= |s|
    ensures s[1..][i - 1..] == s[i..]
    ensures MatchesAt(s[1..], i - 1) == MatchesAt(s, i)
  {
    assert s[1..][i - 1..] == s[i..];
  }

  /** The leftmost match in `s`, as `re.search` finds it. */
  function Search(s: string): (r: Option<Hit>)
    ensures r.Some? ==> r.value.start <= |s| && MatchesAt(s, r.value.start)
    ensures r.Some? ==> MatchPrefix(s[r.value.start..]) == Some(r.value.m)
    ensures r.Some? ==> forall i :: 0 <= i < r.value.start ==> !MatchesAt(s, i)
    ensures r.None? ==> forall i :: 0 <= i <= |s| ==> !MatchesAt(s, i)
  {
    assert s[0..] == s;
    if MatchPrefix(s).Some? then
      Some(Hit(0, MatchPrefix(s).value))
    else if s == [] then None
    else
      match Search(s[1..])
      case None =>
        assert forall i :: 0 <= i <= |s| ==> !MatchesAt(s, i) by {
          forall i | 0 <= i <= |s| ensures !MatchesAt(s, i) {
            if i > 0 { SuffixShift(s, i); }
          }
        }
        None
      case Some(h) =>
        assert forall i :: 0 <= i < h.start + 1 ==> !MatchesAt(s, i) by {
          forall i | 0 <= i < h.start + 1 ensures !MatchesAt(s, i) {
            if i > 0 { SuffixShift(s, i); }
          }
        }
        SuffixShift(s, h.start + 1);
        Some(Hit(h.start + 1, h.m))
  }

  /** A match with none before it is the one `Search` finds. */
  lemma {:induction false} SearchFindsLeftmost(s: string, p: nat, m: Match)
    requires p <= |s| && MatchPrefix(s[p..]) == Some(m)
    requires forall i :: 0 <= i < p ==> !MatchesAt(s, i)
    ensures Search(s) == Some(Hit(p, m))
  {
    assert MatchesAt(s, p);
    var h := Search(s).value;
    assert MatchesAt(s, h.start);
    assert h.start == p;
    assert h.m == m;
  }

  /** Reading the store: the capture of the first match, if any. */
  function Extract(content: string): (r: Option<string>)
    ensures r.Some? ==> r.value != [] && '"' !in r.value
  {
    match Search(content)
    case None => None
    case Some(h) => Some(h.m.capture)
  }

  /** Reading finds nothing exactly when the pattern matches nowhere, and
      otherwise yields the capture of the leftmost match. */
  lemma {:induction false} ExtractFindsFirst(content: string)
    ensures Extract(content).None? <==> forall i :: 0 <= i <= |content| ==> !MatchesAt(content, i)
    ensures Extract(content).Some? ==>
      exists p: nat :: (&& p <= |content| && MatchesAt(content, p)
                        && Extract(content).value == MatchPrefix(content[p..]).value.capture
                        && forall i :: 0 <= i < p ==> !MatchesAt(content, i))
  {
    if Search(content).Some? {
      var h := Search(content).value;
      assert MatchesAt(content, h.start);
    }
  }

  /** Writing the store: `re.sub` of the pattern by `version = "T"`, every
      non-overlapping match from left to right. The replacement is taken
      literally, which is what `re.sub` does only for a token without a
      backslash. */
  function Rewrite(content: string, token: string): string
    requires '\\' !in token
  {
    if content == [] then []
    else match MatchPrefix(content)
      case Some(m) => Canonical(token) + Rewrite(m.rest, token)
      case None => [content[0]] + Rewrite(content[1..], token)
  }

  /** A content without a match is written back unchanged. */
  lemma {:induction false} RewriteNoMatch(content: string, token: string)
    requires '\\' !in token
    requires Search(content).None?
    ensures Rewrite(content, token) == content
  {
    if content != [] {
      assert MatchPrefix(content[0..]).None?;
      assert content[0..] == content;
      assert Search(content[1..]).None? by {
        assert forall i :: 0 <= i <= |content| - 1 ==> content[1..][i..] == content[i + 1..];
      }
      RewriteNoMatch(content[1..], token);
    }
  }

  /** The text before the first match is kept as it is, the match becomes
      the canonical assignment, and the rest is rewritten the same way:
      only matched spans change. */
  lemma {:induction false} RewriteFirst(content: string, token: string)
    requires '\\' !in token
    requires Search(content).Some?
    ensures var h := Search(content).value;
      Rewrite(content, token) == content[..h.start] + Canonical(token) + Rewrite(h.m.rest, token)
    decreases |content|, 1
  {
    var h := Search(content).value;
    DropNothing(content);
    if h.start == 0 {
      EmptyPrefix(content, Canonical(token), Rewrite(h.m.rest, token));
    } else {
      RewriteFirstLater(content, token, h);
    }
  }

  lemma {:induction false} RewriteFirstLater(content: string, token: string, h: Hit)
    requires '\\' !in token
    requires Search(content) == Some(h) && h.start > 0
    ensures Rewrite(content, token) == content[..h.start] + Canonical(token) + Rewrite(h.m.rest, token)
    decreases |content|, 0
  {
    var tail := content[1..];
    var p := h.start - 1;
    SearchTailAt(content, tail, h.start, h.m);
    RewriteFirst(tail, token);
    RewriteUnmatched(content, token);
    ConsShape(content, p, Canonical(token), Rewrite(h.m.rest, token));
  }

  /** Past an offset where nothing matches, the scan goes on one character
      later. */
  lemma {:induction false} SearchTailAt(content: string, tail: string, p: nat, m: Match)
    requires 1 <= p <= |content| && tail == content[1..]
    requires MatchPrefix(content[p..]) == Some(m)
    requires forall i :: 0 <= i < p ==> !MatchesAt(content, i)
    ensures Search(tail) == Some(Hit(p - 1, m))
  {
    SuffixShift(content, p);
    NoMatchShift(content, tail, p);
    SearchFindsLeftmost(tail, p - 1, m);
  }

  /** No match in the first `p` offsets of `content` means none in the
      first `p - 1` offsets of its tail. */
  lemma {:induction false} NoMatchShift(content: string, tail: string, p: nat)
    requires 1 <= p <= |content| && tail == content[1..]
    requires forall i :: 0 <= i < p ==> !MatchesAt(content, i)
    ensures forall i :: 0 <= i < p - 1 ==> !MatchesAt(tail, i)
  {
    forall i | 0 <= i < p - 1
      ensures !MatchesAt(tail, i)
    {
      assert !MatchesAt(content, i + 1);
      SuffixShift(content, i + 1);
    }
  }

  lemma {:induction false} RewriteUnmatched(content: string, token: string)
    requires '\\' !in token
    requires content != [] && !MatchesAt(content, 0)
    ensures Rewrite(content, token) == [content[0]] + Rewrite(content[1..], token)
  {
    DropNothing(content);
  }

  lemma {:induction false} DropNothing(s: string)
    ensures s[0..] == s
  {
  }

  lemma {:induction false} EmptyPrefix(s: string, x: string, y: string)
    ensures s[..0] + x + y == x + y
  {
  }

  lemma {:induction false} ConsShape(s: string, p: nat, x: string, y: string)
    requires p < |s|
    ensures [s[0]] + (s[1..][..p] + x + y) == s[..p + 1] + x + y
  {
  }

  lemma {:induction false} Assoc3(a: string, b: string, c: string)
    ensures a + (b + c) == a + b + c
  {
  }

  /** A match attempt on `x` followed by a text that starts with the key
      and holds a quote fails inside `x` exactly when this holds. */
  predicate Stuck(x: string) {
    || !StartsWith(x, Key)
    || match SkipThen(x[|Key|..], '=')
       case None => true
       case Some(a) =>
         match SkipThen(a, '"')
         case None => true
         case Some(b) => '"' in b && UntilQuote(b) == []
  }

  lemma {:induction false} LStripConcat(x: string, y: string)
    ensures LStrip(x + y) == if LStrip(x) == [] then LStrip(y) else LStrip(x) + y
  {
    if x != [] {
      assert (x + y)[0] == x[0];
      assert (x + y)[1..] == x[1..] + y;
      if IsSpace(x[0]) {
        LStripConcat(x[1..], y);
      }
    } else {
      assert x + y == y;
    }
  }

  lemma {:induction false} UntilQuoteConcat(x: string, y: string)
    ensures UntilQuote(x + y) == if '"' in x then UntilQuote(x) else x + UntilQuote(y)
  {
    if x != [] {
      assert (x + y)[0] == x[0];
      assert (x + y)[1..] == x[1..] + y;
      if x[0] != '"' {
        UntilQuoteConcat(x[1..], y);
      }
    } else {
      assert x + y == y;
    }
  }

  lemma {:induction false} SkipThenConcat(x: string, y: string, c: char)
    requires y != [] && !IsSpace(y[0]) && y[0] != c
    ensures SkipThen(x + y, c) == match SkipThen(x, c)
      case None => None
      case Some(a) => Some(a + y)
  {
    LStripConcat(x, y);
    var l := LStrip(x);
    if l != [] {
      HeadOfConcat(l, y);
    } else {
      assert LStrip(y) == y;
    }
  }

  lemma {:induction false} QuotedConcat(u: string, y: string)
    requires y != [] && y[0] != '"' && '"' in y
    ensures Quoted(u + y).None? <==> ('"' in u && UntilQuote(u) == [])
  {
    UntilQuoteConcat(u, y);
    if '"' !in u {
      assert UntilQuote(y) != y;
      assert |UntilQuote(u + y)| < |u + y|;
    }
  }

  /** Whether a non-empty `x` starts a match in front of a text that
      begins with the key and holds a quote depends on `x` alone: the
      attempt either fails inside `x` or runs on to the quote ahead. */
  lemma {:induction false} PrefixBlocked(x: string, y: string)
    requires x != []
    requires StartsWith(y, Key) && '"' in y
    ensures MatchPrefix(x + y).None? <==> Stuck(x)
  {
    var s := x + y;
    assert y[0] == 'v';
    if |x| < |Key| {
      assert s[|x|] == 'v';
      assert Key[|x|] != 'v';
      assert s[..|Key|][|x|] != Key[|x|];
    } else {
      assert s[..|Key|] == x[..|Key|];
      if StartsWith(x, Key) {
        assert s[|Key|..] == x[|Key|..] + y;
        AfterKeyBlocked(x[|Key|..], y);
      }
    }
  }

  /** Past the key, an attempt on `t + y` fails exactly when it gets
      stuck inside `t`. */
  lemma {:induction false} AfterKeyBlocked(t: string, y: string)
    requires StartsWith(y, Key) && '"' in y
    ensures (match SkipThen(t + y, '=')
             case None => None
             case Some(a) => match SkipThen(a, '"')
                             case None => None
                             case Some(b) => Quoted(b)).None?
        <==> (match SkipThen(t, '=')
              case None => true
              case Some(a) => match SkipThen(a, '"')
                              case None => true
                              case Some(b) => '"' in b && UntilQuote(b) == [])
  {
    assert y[0] == 'v';
    SkipThenConcat(t, y, '=');
    match SkipThen(t, '=')
    case None =>
    case Some(a) =>
      SkipThenConcat(a, y, '"');
      match SkipThen(a, '"')
      case None =>
      case Some(b) =>
        QuotedConcat(b, y);
  }

  /** A match attempt that fails in front of one match also fails in
      front of any other. */
  lemma {:induction false} NoMatchStable(x: string, y1: string, y2: string)
    requires x != []
    requires MatchPrefix(y1).Some? && MatchPrefix(y2).Some?
    requires MatchPrefix(x + y1).None?
    ensures MatchPrefix(x + y2).None?
  {
    var w1, w2 := MatchPrefixSound(y1);
    var u1, u2 := MatchPrefixSound(y2);
    assert y1[|y1| - |MatchPrefix(y1).value.rest| - 1] == '"';
    assert y2[|y2| - |MatchPrefix(y2).value.rest| - 1] == '"';
    PrefixBlocked(x, y1);
    PrefixBlocked(x, y2);
  }

  /** A token the canonical assignment can carry and read back. */
  predicate ValidToken(token: string) {
    token != [] && '"' !in token && '\\' !in token
  }

  /** After a rewrite, the first match sits where the first match was
      before, and it now carries the new token. */
  lemma {:induction false} SearchAfterRewrite(content: string, token: string)
    requires ValidToken(token)
    requires Search(content).Some?
    ensures var h := Search(content).value;
      Search(Rewrite(content, token)) == Some(Hit(h.start, Match(token, Rewrite(h.m.rest, token))))
  {
    var h := Search(content).value;
    var p := h.start;
    var tail := Rewrite(h.m.rest, token);
    var y := Canonical(token) + tail;
    RewriteFirst(content, token);
    var r := Rewrite(content, token);
    Assoc3(content[..p], Canonical(token), tail);
    MatchPrefixComplete(" ", " ", token, tail);
    SliceOfConcat(content[..p], y, p);
    forall i | 0 <= i < p
      ensures !MatchesAt(r, i)
    {
      StillNoMatchBefore(content, p, y, i);
    }
    SearchFindsLeftmost(r, p, Match(token, tail));
  }

  /** Replacing the text from a match onwards by another match keeps every
      earlier offset match-free. */
  lemma {:induction false} StillNoMatchBefore(s: string, p: nat, y: string, i: nat)
    requires i < p <= |s|
    requires MatchesAt(s, p) && !MatchesAt(s, i)
    requires MatchPrefix(y).Some?
    ensures !MatchesAt(s[..p] + y, i)
  {
    var x := s[i..p];
    SliceOfConcat(s[..p], y, i);
    assert s[..p][i..] == x;
    SliceJoin(s, i, p);
    NoMatchStable(x, s[p..], y);
  }

  lemma {:induction false} SliceOfConcat(a: string, b: string, i: nat)
    requires i <= |a|
    ensures (a + b)[i..] == a[i..] + b
  {
  }

  lemma {:induction false} SliceJoin(s: string, i: nat, p: nat)
    requires i <= p <= |s|
    ensures s[i..] == s[i..p] + s[p..]
  {
  }

  /** Round trip: reading back a rewritten store yields the new token. */
  lemma {:induction false} RoundTrip(content: string, token: string)
    requires ValidToken(token)
    requires Extract(content).Some?
    ensures Extract(Rewrite(content, token)) == Some(token)
  {
    SearchAfterRewrite(content, token);
  }

  /** Rewriting twice is rewriting once with the last token: nothing of
      the earlier token survives, and no other text moves. */
  lemma {:induction false} LastWriteWins(content: string, first: string, second: string)
    requires ValidToken(first) && '\\' !in second
    ensures Rewrite(Rewrite(content, first), second) == Rewrite(content, second)
    decreases |content|
  {
    match Search(content)
    case None =>
      RewriteNoMatch(content, first);
      RewriteNoMatch(content, second);
    case Some(h) =>
      var p := h.start;
      var once := Rewrite(content, first);
      RewriteFirst(content, first);
      RewriteFirst(content, second);
      SearchAfterRewrite(content, first);
      var tail := Rewrite(h.m.rest, first);
      RewriteFirst(once, second);
      PrefixKept(content[..p], Canonical(first), tail);
      LastWriteWins(h.m.rest, first, second);
  }

  lemma {:induction false} PrefixKept(a: string, b: string, c: string)
    ensures (a + b + c)[..|a|] == a
  {
  }

  /** Rewriting with the token already stored changes nothing more. */
  lemma {:induction false} RewriteIdempotent(content: string, token: string)
    requires ValidToken(token)
    ensures Rewrite(Rewrite(content, token), token) == Rewrite(content, token)
  {
    LastWriteWins(content, token, token);
  }

  predicate IsVPrefix(c: char) {
    c == 'v' || c == 'V'
  }

  /** The new token as the script derives it: the answer is trimmed, an
      empty answer cancels, and one leading `v` or `V` is dropped. The
      emptiness test runs before the prefix is dropped, so the answer `v`
      yields the empty token. */
  function NormalizeAsWritten(answer: string): (r: Option<string>)
    ensures r.None? <==> Strip(answer) == []
    ensures r.Some? ==> Strip(answer) == (if IsVPrefix(Strip(answer)[0]) then [Strip(answer)[0]] else []) + r.value
  {
    var t := Strip(answer);
    if t == [] then None
    else if IsVPrefix(t[0]) then Some(t[1..])
    else Some(t)
  }

  /** The normalisation the rest of the model uses: as written, except
      that an answer with nothing left after the prefix cancels too, so
      the stored token is never empty. */
  function Normalize(answer: string): (r: Option<string>)
    ensures r.Some? ==> r.value != []
  {
    var t := Strip(answer);
    if t == [] then None
    else if IsVPrefix(t[0]) then (if |t| == 1 then None else Some(t[1..]))
    else Some(t)
  }

  /** The answer cancels exactly when nothing but an optional `v` is left
      once it is trimmed; otherwise the token is the trimmed answer with
      at most one leading `v` or `V` removed. */
  lemma {:induction false} NormalizeSpec(answer: string)
    ensures var t := Strip(answer);
      Normalize(answer).None? <==> t == [] || (|t| == 1 && IsVPrefix(t[0]))
    ensures var t := Strip(answer);
      Normalize(answer).Some? ==> t == (if IsVPrefix(t[0]) then [t[0]] else []) + Normalize(answer).value
  {
    var t := Strip(answer);
    if t != [] {
      assert t == [t[0]] + t[1..];
    }
  }

  /** The two normalisations differ only on the answers `v` and `V`. */
  lemma {:induction false} NormalizeAgrees(answer: string)
    ensures NormalizeAsWritten(answer) != Normalize(answer) <==>
      (Strip(answer) == "v" || Strip(answer) == "V")
  {
  }

  /** As written, the answer `v` is accepted as the empty token, the
      rewrite stores `version = ""`, and that store no longer has a
      version to read. */
  lemma {:induction false} AsWrittenEmptyToken()
    ensures NormalizeAsWritten("v") == Some([])
    ensures Rewrite(Canonical("1.0"), []) == Canonical([])
    ensures Extract(Canonical([])) == None
  {
    StripPadded([], "v", []);
    assert [] + "v" + [] == "v";
    RewriteCanonical("1.0", []);
    EmptyCanonicalUnread();
  }

  /** A store holding just the canonical assignment is rewritten to the
      canonical assignment of the new token. */
  lemma {:induction false} RewriteCanonical(prior: string, token: string)
    requires prior != [] && '"' !in prior && '\\' !in token
    ensures Rewrite(Canonical(prior), token) == Canonical(token)
  {
    MatchPrefixComplete(" ", " ", prior, []);
    AppendEmpty(Canonical(prior));
    AppendEmpty(Canonical(token));
  }

  /** A store holding just the canonical assignment of a readable token
      reads back as that token. */
  lemma {:induction false} CanonicalReadable(prior: string)
    requires prior != [] && '"' !in prior
    ensures Extract(Canonical(prior)) == Some(prior)
  {
    var content := Canonical(prior);
    MatchPrefixComplete(" ", " ", prior, []);
    AppendEmpty(content);
    assert content[0..] == content;
    assert MatchesAt(content, 0);
  }

  lemma {:induction false} AppendEmpty(s: string)
    ensures s + [] == s
  {
  }

  /** `version = ""` has no match: the capture `[^"]+` needs at least one
      character, and no other offset starts with the key. */
  lemma {:induction false} EmptyCanonicalUnread()
    ensures Extract(Canonical([])) == None
  {
    var e := Canonical([]);
    forall i | 0 <= i <= |e|
      ensures !MatchesAt(e, i)
    {
      EmptyCanonicalAt(e, i);
    }
  }

  lemma {:induction false} EmptyCanonicalAt(e: string, i: nat)
    requires e == Canonical([]) && i <= |e|
    ensures !MatchesAt(e, i)
  {
    if i == 0 {
      EmptyCanonicalAtStart(e);
    } else {
      var r := "ersion = \"\"";
      assert e == ['v'] + r;
      assert 'v' !in r;
      assert e[i..] == r[i - 1..];
      NoKeyNoMatch(e[i..]);
    }
  }

  lemma {:induction false} EmptyCanonicalAtStart(e: string)
    requires e == Canonical([])
    ensures !MatchesAt(e, 0)
  {
    assert e[0..] == e;
    AppendEmpty(e);
    EmptyCaptureNoMatch(" ", " ", []);
  }

  /** An assignment with nothing between the quotes is not matched:
      `[^"]+` needs at least one character. */
  lemma {:induction false} EmptyCaptureNoMatch(w1: string, w2: string, rest: string)
    requires AllSpace(w1) && AllSpace(w2)
    ensures MatchPrefix(MatchText(w1, w2, []) + rest).None?
  {
    var s := MatchText(w1, w2, []) + rest;
    var b := "\"" + rest;
    var a := w2 + "\"" + b;
    assert s[..|Key|] == Key;
    assert s[|Key|..] == w1 + "=" + a;
    SkipThenComplete(w1, '=', a);
    SkipThenComplete(w2, '"', b);
  }

  /** A text that does not start with `v` has no match at its start. */
  lemma {:induction false} NoKeyNoMatch(s: string)
    requires s == [] || s[0] != 'v'
    ensures MatchPrefix(s).None?
  {
    if |Key| <= |s| {
      assert s[..|Key|][0] != Key[0];
    }
  }

  /** The leading `v` or `V` is dropped once, and only once. */
  lemma {:induction false} NormalizeExamples()
    ensures Normalize("vv1.0") == Some("v1.0")
    ensures Normalize(" V2.0.0 ") == Some("2.0.0")
    ensures Normalize("  ") == None
    ensures Normalize(" v ") == None
  {
    NormalizeDoubleV();
    NormalizePaddedV();
    NormalizeBlank();
    NormalizeBareV();
  }

  lemma {:induction false} NormalizeDoubleV()
    ensures Normalize("vv1.0") == Some("v1.0")
  {
    StripPadded([], "vv1.0", []);
    assert [] + "vv1.0" + [] == "vv1.0";
  }

  lemma {:induction false} NormalizePaddedV()
    ensures Normalize(" V2.0.0 ") == Some("2.0.0")
  {
    var x := "V2.0.0";
    assert x[0] == 'V' && x[5] == '0' && x[1..] == "2.0.0";
    assert [' '] + x + [' '] == " V2.0.0 ";
    NormalizePadded([' '], x, [' ']);
  }

  /** Normalising a padded answer only looks at what is inside the
      padding. */
  lemma {:induction false} NormalizePadded(w1: string, x: string, w2: string)
    requires AllSpace(w1) && AllSpace(w2)
    requires x != [] && !IsSpace(x[0]) && !IsSpace(x[|x| - 1])
    ensures Normalize(w1 + x + w2)
      == if !IsVPrefix(x[0]) then Some(x) else if |x| == 1 then None else Some(x[1..])
  {
    StripPadded(w1, x, w2);
  }

  lemma {:induction false} NormalizeBlank()
    ensures Normalize("  ") == None
  {
    assert "  "[0] == ' ' && "  "[1] == ' ';
    NormalizeAllSpace("  ");
  }

  /** An answer of whitespace only cancels. */
  lemma {:induction false} NormalizeAllSpace(w: string)
    requires AllSpace(w)
    ensures Normalize(w) == None
  {
    StripAllSpace(w);
  }

  lemma {:induction false} NormalizeBareV()
    ensures Normalize(" v ") == None
  {
    StripPadded(" ", "v", " ");
    assert " " + "v" + " " == " v ";
  }
}

=== FILE: wrappers.dfy ===
/** The optional-value datatype the rest of the model returns where the
    scripts either find something or report that nothing was found. */
module Wrappers {

  datatype Option<+T> = None | Some(value: T)
}
